=== FILE: README.md ===
# LX200 telescope emulator: a Dafny model

`lx200emulator.py` pretends to be a Meade LX200-style telescope controller
behind a TCP socket. A client sends colon-prefixed commands ending in `#`.
The emulator splits each read on `#`, routes every command through a
two-level dispatcher (`command[0:2]`, then `command[1:3]`), updates its small
state record and sends back each reply that is not None.

This project models that behaviour as pure functions and proves properties
about it:

- `Text` models Python's clamping slices `s[lo:hi]` and `s[lo:]`, plus the
  first-occurrence cut that `str.split` is built from.
- `Decimal` models `str()` of an int and `int()` of a str. `int()` accepts
  surrounding white space, a sign, leading zeros and single underscores
  between digits; anything else is an error.
- `Sexagesimal` models `deg_min_sec`, which truncates successive fractional
  remainders, over exact reals. It also models the declination reply
  `sign deg * min ' sec #` and the right-ascension reply
  `deg : min : sec #`. Each reply has a reader as its partner. For a
  non-negative angle the reader gets back exactly the triple that was
  formatted. A declination of -1 degree or less prints a doubled minus sign
  that the reader rejects. The readers accept the unpadded shape the
  emulator prints, not the zero-padded fields of the LX200 protocol.
- `Telescope` models the state record (RA, Dec, mount mode, find-field
  diameter, display text) and every handler of `TelescopeStateMachine`.
  `Dispatch` takes a state and one command and returns the next state with
  an optional reply, or the exception Python would raise. A second
  definition, `TableDispatch`, routes through a flat table of
  `(family, key)` pairs. It is independent of the nested `match` blocks and
  proved equal to `Dispatch` on every input.
- `Framer` models `split('#')` and the filter that keeps pieces longer than
  one character that start with `:`. It also covers the rule that a read
  with no `#` yields nothing.
- `Session` models the read loop without the socket:
  - `RunCommands` folds `Dispatch` over the framed commands.
  - `Feed` handles one read and `Connection` handles a sequence of reads.
  - `HandleChunk` is an imperative rendering of the `for c in command:`
    loop, proved to agree with `Feed`. The piece loop itself is `HandlePieces`.
- `Scenarios` pins exact bytes for concrete reads. Examples are the initial
  position replies `18:54:36#` and `+33*3'36#`, the `:SF015` set, a command
  split across two reads, and the session ending at `:A`.

Angles are exact reals. Every statement about `deg_min_sec` holds under
exact arithmetic, not IEEE doubles.

## Model

| member | source | states |
|---|---|---|
| Text.Slice | lx200emulator.py:136 | a Python slice never raises: inside the string it is the subsequence; past the end it stops at the end; an empty or inverted range gives the empty string |
| Text.From | lx200emulator.py:56 | `command[3:]` is the suffix after position 3, or empty for a shorter command |
| Text.Cut | lx200emulator.py:209 | cutting at the first delimiter fails exactly when there is none; otherwise the head holds no delimiter and head, delimiter and tail rebuild the string |
| Text.CutFirst | lx200emulator.py:209 | a string with no delimiter, then the delimiter, then anything, is cut right after that string |
| Decimal.NatToString | lx200emulator.py:88 | `str(n)` of a non-negative int is a canonical numeral (no superfluous leading zero); it has one digit iff n < 10 and at most two iff n < 100 |
| Decimal.Show | lx200emulator.py:88 | `str(i)` starts with `-` exactly when i is negative, and the digits after the sign are canonical |
| Decimal.ParseNatToString | lx200emulator.py:88 | reading back `str(n)` gives n |
| Decimal.NatToStringParse | lx200emulator.py:88 | a canonical numeral is exactly `str()` of its value, so the printing is unique |
| Decimal.ParseNatAtLeastLead | lx200emulator.py:88 | a numeral's value is at least its leading digit |
| Decimal.ParseNatThree | lx200emulator.py:136 | three digits read as hundreds, tens and units |
| Decimal.StripLeadingSuffix | lx200emulator.py:136 | the leading strip `int()` applies leaves a suffix and drops only white space |
| Decimal.StripTrailingPrefix | lx200emulator.py:136 | the trailing strip leaves a prefix and drops only white space |
| Decimal.StripUnpadded | lx200emulator.py:136 | a string with no white space at either end is left alone by the strip |
| Decimal.Ungrouped | lx200emulator.py:136 | the digits `int()` reads from an accepted literal are exactly its characters other than `_`, in order (as an independent filter computes them), and they form a non-empty digit run |
| Decimal.NumeralIsGrouped | lx200emulator.py:136 | every plain digit run is a literal `int()` accepts, unchanged when the underscores are removed |
| Decimal.ParseIntNumeral | lx200emulator.py:136 | `int()` of a digit run is its decimal value, leading zeros included |
| Decimal.ParseInt | lx200emulator.py:136 | whatever `int()` accepts contains at least one ASCII digit; the round trips and scenarios below pin its values |
| Decimal.ParseIntShow | lx200emulator.py:136 | `int(str(i)) == i` for every int i, negative ones included |
| Decimal.ParseIntNegative | lx200emulator.py:136 | a `-` before a digit run negates its value |
| Decimal.ParseIntLeadingSpace | lx200emulator.py:136 | one leading space or `\t`..`\r` character does not change what `int()` returns or whether it raises |
| Decimal.GroupedAfterUnderscore | lx200emulator.py:136 | a digit run, one `_` and an accepted literal form an accepted literal, and only the `_` is dropped |
| Decimal.ParseIntUnderscore | lx200emulator.py:136 | `int()` ignores one underscore between two digit runs: `int(a + '_' + b) == int(a + b)` |
| Decimal.ParseIntNeedsDigit | lx200emulator.py:136 | a string with no digit at all (such as `abc` or the empty string) makes `int()` raise |
| Decimal.ParseNatBound | lx200emulator.py:136 | a k-digit numeral is below 10^k |
| Decimal.ParseIntThreeChars | lx200emulator.py:136 | whatever `int()` accepts from at most three characters lies between -99 and 999 |
| Sexagesimal.Trunc | lx200emulator.py:30 | `int()` of a real truncates toward zero: the floor for non-negative input and the ceiling for negative input |
| Sexagesimal.DegMinSec | lx200emulator.py:29-36 | for x >= 0: deg is the floor of x and min and sec lie in 0..59; for x < 0 all three are <= 0 and min, sec >= -59; the triple read back as degrees falls short of \|x\| by less than one arc-second, toward zero |
| Sexagesimal.DegMinSecOdd | lx200emulator.py:29-36 | the conversion is odd: a negated angle gives the component-wise negated triple |
| Sexagesimal.FromSeconds | lx200emulator.py:29-36 | the reference conversion from whole seconds keeps minutes and seconds within 0..59 |
| Sexagesimal.FromSecondsValue | lx200emulator.py:29-36 | the reference triple for t seconds is worth exactly t/3600 degrees |
| Sexagesimal.DegMinSecIsFlooredSeconds | lx200emulator.py:29-36 | for x >= 0, successive truncation equals splitting floor(3600 x) seconds into degrees, minutes and seconds |
| Sexagesimal.FormatDec | lx200emulator.py:83-88 | the declination reply ends in `#` and starts with `+` iff dec >= 0, with `-` iff dec < 0 |
| Sexagesimal.FormatRa | lx200emulator.py:93-95 | the right-ascension reply ends in `#`; it starts with a digit for ra >= 0 and with `-` for ra <= -1 |
| Sexagesimal.ParseDecOf | lx200emulator.py:88 | any text of the declination shape reads back as its sign and its three numerals' values |
| Sexagesimal.ParseRaOf | lx200emulator.py:95 | any text of the right-ascension shape reads back as its three numerals' values |
| Sexagesimal.FormatDecRoundTrip | lx200emulator.py:83-88 | for dec >= 0 the reply reads back as `+` with exactly the `deg_min_sec` triple |
| Sexagesimal.FormatRaRoundTrip | lx200emulator.py:93-95 | for ra >= 0 the reply reads back as exactly the `deg_min_sec` triple |
| Sexagesimal.FormatDecNegativeRejected | lx200emulator.py:84-88 | for dec <= -1 the reply starts with `--` (explicit sign, then the signed degrees), so it is not in the declination format |
| Sexagesimal.LeadingSignRejected | lx200emulator.py:88 | a `-` sign followed by a negative numeral and `*`, as a negative declination prints, is rejected by the declination reader whatever follows |
| Telescope.Family | lx200emulator.py:158 | the family key `command[0:2]` is at most two characters |
| Telescope.Key | lx200emulator.py:101 | the sub-key `command[1:3]` is at most two characters |
| Telescope.RoutingKeysAreSlices | lx200emulator.py:158 | the two routing keys are the Python slices `[0:2]` and `[1:3]` of the command |
| Telescope.RoutingKeys | lx200emulator.py:158 | for a command of three or more characters, the keys are characters 0-1 and 1-2 |
| Telescope.KeyPress | lx200emulator.py:55-63 | the keypress reply is `Mode#` exactly when `command[3:]` is `9`, and `Object` (no `#`) otherwise |
| Telescope.HandsetDisplay | lx200emulator.py:66-75 | an `:E` command answers `Select#` exactly when its key is neither `ED` nor `EK`; `ED` answers `Object`; the block never answers NAK |
| Telescope.FieldDiameterText | lx200emulator.py:90-91 | the diameter reply is the five-character `%...#` template itself, whatever the stored diameter |
| Telescope.TelescopeInformation | lx200emulator.py:100-115 | a `:G` command is answered with NAK exactly when its key is none of G0, GD, GF, GR and GW |
| Telescope.SlewRate | lx200emulator.py:120-130 | an `:R` command is silent exactly when its key is `RC`; otherwise it answers NAK |
| Telescope.SetFieldDiameter | lx200emulator.py:135-141 | `:SF` fails exactly when `int(command[3:6])` raises, and the failure is a ValueError; otherwise it answers `1`, changes only the diameter, and stores a value between -99 and 999 |
| Telescope.ThreeDigitArgument | lx200emulator.py:136 | when characters 3-5 are digits, the argument reads as the three-digit value |
| Telescope.TelescopeSet | lx200emulator.py:145-151 | an `:S` key other than `SF` answers NAK and leaves the state alone |
| Telescope.Dispatch | lx200emulator.py:157-172 | a successful command changes no field except the find-field diameter |
| Telescope.DispatchOutcomes | lx200emulator.py:157-172 | a command raises iff it is `:A` or an `:SF` whose argument `int()` rejects, and the exception matches the cause; a successful command is silent iff it is `:RC`; only `:SF` changes the state |
| Telescope.UnknownFamilyIsNack | lx200emulator.py:157-172 | a family other than `:A :E :G :R :S` answers the single byte 0x15 and leaves the state alone |
| Telescope.UnknownKeyAnswers | lx200emulator.py:100-151 | an unknown key answers NAK under `:G`, `:R` and `:S`, and `Select#` under `:E`; the state is unchanged in every case |
| Telescope.UnknownInformationKey | lx200emulator.py:100-115 | an `:G` key outside `G0 GD GF GR GW` answers NAK and leaves the state alone |
| Telescope.UnknownSlewKey | lx200emulator.py:123-130 | an `:R` key other than `RC` answers NAK and leaves the state alone |
| Telescope.UnknownSetKey | lx200emulator.py:145-151 | an `:S` key other than `SF` answers NAK and leaves the state alone |
| Telescope.UnknownDisplayKey | lx200emulator.py:66-75 | an `:E` key other than `ED` and `EK` answers `Select#` and leaves the state alone |
| Telescope.CenteringRateIsSilent | lx200emulator.py:120-128 | `:RC` answers nothing and leaves the state alone |
| Telescope.SetFieldDiameterStores | lx200emulator.py:135-141 | `:SF` with three digits stores their value and answers `1`; nothing else changes |
| Telescope.SetterStores | lx200emulator.py:135-141 | `:SF` whose argument `int()` reads as n stores n and answers `1`; nothing else changes |
| Telescope.QueriesAreReadOnly | lx200emulator.py:80-115 | every `:G` and `:E` command succeeds without changing the state; `G0` answers `1#`, `GW` answers `006#` and `GF` answers the literal `%03d#` |
| Telescope.PositionQueries | lx200emulator.py:83-95 | `:GD` and `:GR` answer the formatted current position, and for non-negative angles the reply reads back as the `deg_min_sec` triple |
| Telescope.DeclinationQuery | lx200emulator.py:83-88 | `:GD` answers the declination reply for the current declination |
| Telescope.RightAscensionQuery | lx200emulator.py:93-95 | `:GR` answers the right-ascension reply for the current right ascension |
| Telescope.SetCommand | lx200emulator.py:136 | for every n up to 999 there is a six-character `:SF` command whose argument reads as n |
| Telescope.SetCommandReads | lx200emulator.py:136 | `:SF` followed by three digits a, b, c has argument value 100a + 10b + c |
| Telescope.SetThenQueryDoesNotEcho | lx200emulator.py:90-91 | after `:SF` stores n (0..999), `:GF` answers `%03d#` and not the padded n |
| Telescope.RouteKey | lx200emulator.py:158 | a command has a two-letter route iff it has at least three characters and starts with `:`; the route's letters are the family and key characters |
| Telescope.DispatchMatchesTable | lx200emulator.py:157-172 | the nested dispatcher and the flat routing table give the same result for every state and every command |
| Telescope.RoutedMatchesTable | lx200emulator.py:157-172 | for a command whose route is in the table, the nested dispatcher runs that route's handler |
| Telescope.RoutedInformation | lx200emulator.py:100-115 | every `:G` route in the table agrees with the nested dispatcher |
| Telescope.RoutedOther | lx200emulator.py:157-172 | every table route outside `:G` agrees with the nested dispatcher |
| Telescope.RoutedDisplay | lx200emulator.py:66-75 | every `:E` route in the table agrees with the nested dispatcher |
| Telescope.RoutedSlew | lx200emulator.py:123-130 | every `:R` route in the table agrees with the nested dispatcher |
| Telescope.RoutedSet | lx200emulator.py:145-151 | the one remaining table route, `:SF`, agrees with the nested dispatcher |
| Telescope.UnroutedMatchesTable | lx200emulator.py:157-172 | a command whose route is missing from the table gets the table's fallback answer from the nested dispatcher as well |
| Telescope.UnroutedKey | lx200emulator.py:157-172 | a well-formed route missing from the table falls to the family's default answer |
| Telescope.NoRouteKey | lx200emulator.py:157-172 | a command too short to route, or not starting with `:`, gets the fallback answer |
| Framer.Split | lx200emulator.py:209 | `split('#')` yields at least one piece and no piece holds `#`; it yields the string alone iff there is no `#` |
| Framer.JoinSplit | lx200emulator.py:209 | joining the pieces with `#` restores the read |
| Framer.SplitJoin | lx200emulator.py:209 | splitting a `#`-join of `#`-free pieces gives those pieces back |
| Framer.SplitAround | lx200emulator.py:209 | splitting `a#b` gives the pieces of a followed by the pieces of b |
| Framer.Candidates | lx200emulator.py:211-215 | the filter keeps only pieces longer than one character that start with `:`, and keeps every such piece |
| Framer.CandidatesAppend | lx200emulator.py:211-215 | the filter commutes with concatenation, so candidates keep their order |
| Framer.CandidatesOfCandidates | lx200emulator.py:213-215 | the filter leaves a list of candidates unchanged |
| Framer.Frame | lx200emulator.py:208-215 | a read without `#` yields no command; every command yielded is a `#`-free candidate; every candidate piece of a read with `#` is yielded |
| Framer.FrameKeepsTrailingPiece | lx200emulator.py:208-215 | the unterminated last piece is dispatched after the earlier candidates, as long as the read holds a `#` |
| Framer.FrameTerminated | lx200emulator.py:208-215 | commands sent each followed by `#` in one read are framed to exactly those commands, in order |
| Framer.TerminatedSplit | lx200emulator.py:209 | splitting `#`-terminated commands gives the commands and one empty last piece |
| Session.Payload | lx200emulator.py:219-221 | a reply is sent iff it is not None, and then only that reply |
| Session.RunCommands | lx200emulator.py:211-221 | processing the commands of a read never closes the connection; it sends at most one reply per command and changes at most the diameter |
| Session.RunCommandsBlame | lx200emulator.py:211-221 | if processing raised, some command was `:A` or a rejected `:SF`; if the state changed, some command was `:SF` |
| Session.RunCommandsAppend | lx200emulator.py:211-221 | processing a+b equals processing a, then processing b from where a left off, unless a raised, and concatenating the replies |
| Session.SilentCommandsSendNothing | lx200emulator.py:219-221 | a read of only `:RC` commands sends nothing and changes nothing |
| Session.Feed | lx200emulator.py:202-221 | a read without `#` sends nothing and changes nothing; a read never closes the connection; only the diameter can change |
| Session.Connection | lx200emulator.py:197-221 | a connection changes at most the diameter, and it reports the peer closing only when an empty read occurred |
| Session.EmptyReadCloses | lx200emulator.py:202-203 | an empty read that arrives while the connection is open closes it: earlier replies stand and later reads are ignored |
| Session.HandleChunk | lx200emulator.py:208-221 | the loop that walks the split pieces, skips non-candidates, dispatches the rest and sends non-None replies computes the same state, replies and exception as `Feed` |
| Session.HandlePieces | lx200emulator.py:211-221 | the loop over the split pieces, which stops at the first exception, computes exactly the run over the candidate pieces |
| Session.HandlePiece | lx200emulator.py:211-221 | one iteration of the piece loop extends the run over the first i pieces to the first i+1, stopping with the exception if the piece raises |
| Session.CandidateAnswered | lx200emulator.py:213-221 | a candidate piece that succeeds appends its payload to the replies so far |
| Session.NonCandidateSkipped | lx200emulator.py:213-215 | a piece that is too short or lacks `:` adds no command |
| Session.CandidatesSnoc | lx200emulator.py:211-215 | the candidates of one more piece are the old candidates plus that piece if it qualifies |
| Session.RunOneMoreAnswers | lx200emulator.py:218-221 | one more successful command extends the replies by its payload |
| Session.RunOneMoreRaises | lx200emulator.py:218 | one more raising command keeps the replies and state and records the exception |
| Session.RaisedStaysRaised | lx200emulator.py:218 | once the candidates among a prefix of the pieces have raised, the outcome over all the pieces is that prefix's outcome: nothing later is dispatched |
| Scenarios.InitialPositionReplies | lx200emulator.py:21-36 | the initial 18.91 h and 33.06 degrees convert to 18 54 36 and 33 3 36 and are answered `18:54:36#` and `+33*3'36#` |
| Scenarios.AnswerPosition | lx200emulator.py:83-95 | `:GR` and `:GD` answer the formatted position in any state |
| Scenarios.AnswerStatus | lx200emulator.py:97-98 | `:GW` answers `006#` |
| Scenarios.AnswerZero | lx200emulator.py:80-81 | `:G0` answers `1#` |
| Scenarios.AnswerAlignment | lx200emulator.py:161-162 | `:A` raises the missing-handler AttributeError |
| Scenarios.AnswerUnknown | lx200emulator.py:100-115 | `:ZZ` and `:GV` answer NAK, and `:EX` answers `Select#` |
| Scenarios.AnswerSet | lx200emulator.py:135-141 | `:SF015` stores 15 and answers `1` |
| Scenarios.AnswerPaddedSet | lx200emulator.py:136 | `:SF 15` stores 15, because `int()` strips the blank |
| Scenarios.AnswerSignedSet | lx200emulator.py:136 | `:SF-12` stores -12; nothing keeps the diameter positive |
| Scenarios.AnswerGroupedSet | lx200emulator.py:136 | `:SF1_5` stores 15 |
| Scenarios.GroupedFifteen | lx200emulator.py:136 | `int('1_5')` is 15 |
| Scenarios.AnswerInvalidSet | lx200emulator.py:136 | `:SFabc` raises ValueError |
| Scenarios.FrameQueries | lx200emulator.py:208-215 | the read `:GR#:GD#` yields `:GR`, `:GD` |
| Scenarios.FrameSplitRead | lx200emulator.py:208 | `:GR` holds no `#`, so a read of just `:GR` yields nothing; a later read of `#` alone yields nothing either, while `:GR#` in one read yields `:GR` |
| Scenarios.FrameUnterminated | lx200emulator.py:209-215 | the read `:GW#:G0` yields `:GW` and the unterminated `:G0` |
| Scenarios.FrameSetRead | lx200emulator.py:208-215 | the read `:SF015#` yields `:SF015` |
| Scenarios.FrameStatusRead | lx200emulator.py:208-215 | the read `:GW#` yields `:GW` |
| Scenarios.FrameGapRead | lx200emulator.py:208-215 | the read `#:GD#` yields only `:GD`: the empty piece before the first `#` is skipped |
| Scenarios.FrameInvalidRead | lx200emulator.py:208-215 | the read `:GW#:SFabc#:GR#` yields its three commands in order |
| Scenarios.FrameAlignmentReads | lx200emulator.py:208-215 | the reads `:GW#:A#:GR#` and `:G0#` yield their commands in order |
| Scenarios.FrameUnknownRead | lx200emulator.py:208-215 | the read `:ZZ#:GV#:EX#` yields its three commands in order |
| Scenarios.QueriesThenSet | lx200emulator.py:197-221 | the reads `:GR#:GD#` then `:SF015#` send the two position replies and then `1`, and store 15 |
| Scenarios.InitialQueriesThenSet | lx200emulator.py:21-26 | from the initial state, the same two reads send `18:54:36#`, `+33*3'36#` and `1` |
| Scenarios.CommandSplitAcrossReadsIsLost | lx200emulator.py:205-208 | a non-empty read without `#` is dropped whole: the connection then runs exactly as if that read had never arrived, whatever the later reads carry |
| Scenarios.SplitQueryAnswersOnlyTheRest | lx200emulator.py:205-215 | the reads `:GR` then `#:GD#` send only the declination reply; the split `:GR` is never answered |
| Scenarios.UnterminatedTailIsAnswered | lx200emulator.py:209-221 | the read `:GW#:G0` sends `006#` and `1#` |
| Scenarios.EmptyReadEndsTheSession | lx200emulator.py:200-203 | after a read `:GW#` and an empty read, only `006#` has been sent, the connection is closed, and a later read is ignored |
| Scenarios.AlignmentEndsTheSession | lx200emulator.py:161-162 | in the reads `:GW#:A#:GR#` then `:G0#`, only `006#` is sent before the exception ends everything |
| Scenarios.InvalidDiameterEndsTheSession | lx200emulator.py:136 | the read `:GW#:SFabc#:GR#` sends `006#` and then ends with ValueError, leaving the diameter untouched |
| Scenarios.UnknownCommands | lx200emulator.py:171-172 | the read `:ZZ#:GV#:EX#` sends NAK, NAK, `Select#` |
| Scenarios.InitialSession | lx200emulator.py:21-27 | from the initial state, the reads `:GR#:GD#` then `:SF015#` send exactly `18:54:36#`, `+33*3'36#`, `1` and leave the connection open |
| Scenarios.ExampleSessions | lx200emulator.py:200-221 | on the literal reads `:GR#:GD#` then `:SF015#`, `:GR` then `#:GD#`, `:GW#:G0`, and `:GW#` then an empty read, the replies and final status are as in the scenarios above, for every state |
| Scenarios.ExampleFailures | lx200emulator.py:135-172 | on the literal reads `:GW#:A#:GR#` then `:G0#`, `:GW#:SFabc#:GR#`, and `:ZZ#:GV#:EX#`, only `006#` is sent before AttributeError or ValueError, and the unknown commands draw NAK, NAK, `Select#` |

## Behaviour kept as the code has it

The model follows the code wherever the program's own comments or
documentation suggest something else.

- `get_find_field_diameter` calls `'%03d#'.format(...)`. `str.format` finds
  no `{}` in that string, so the reply is always the literal `%03d#`. The
  diameter set by `:SF` is never echoed back.
- `:SF` reads its argument with `int(command[3:6])`, not as "three digits".
  A blank-padded, signed or underscored argument is stored. A short argument
  is stored as well, for example `:SF5` stores 5. An argument `int()`
  rejects raises ValueError. The model treats that exception like every
  other one: it ends the loop.
- `:A` calls `process_alignment`, which the class does not define, so it
  raises AttributeError. That exception is not caught (only BlockingIOError
  is), so it ends the connection loop and the server. No reply is invented.
- A declination of -1 or less prints its sign twice, because `deg_min_sec`
  already makes the degrees negative: the reply reads `--33*-3'-36#`. All
  components of a negative angle are at most 0, and a zero component
  prints without a sign, so -0.5 prints `-0*-30'0#`.
- A read with no `#` is thrown away, because each read overwrites the
  buffer. A command split across two reads is therefore lost. Within a read
  that holds a `#`, the unterminated last piece is dispatched like any
  other.
- One state machine serves every connection the server accepts, so a
  diameter set in one connection is seen by the next. `Connection` starts
  from whatever state it is given.
- `:GV` is not a command of this file. It answers NAK.

## Left out

- The socket: bind, listen, accept, recv, sendall and close. Reads are given
  as a sequence of strings, and what is sent is the sequence of replies.
- The UTF-8 decode of each read (line 205). A read that splits a multi-byte
  character would raise UnicodeDecodeError; the model starts from decoded
  text.
- `time.sleep`, every `print`, `sys._getframe`, and the BlockingIOError
  handler. The socket is blocking, so that handler is unreachable.
- `sendall` failing on a broken connection. A send is modelled as always
  succeeding.
- The command-line entry point after line 240, which reads the port from
  `sys.argv` and starts the server.
- Sexagesimal.DegMinSec: reals, not IEEE doubles. Every stated result holds
  under exact arithmetic; the float computation of the source can round
  differently near a component boundary.
- Decimal.ParseInt: only ASCII digits are accepted, and only the space and
  `\t` to `\r` as white space. Python's `int()` also accepts non-ASCII
  decimal digits and non-ASCII spaces such as U+0085 and U+00A0.
  It maps them to ASCII before it parses.
- The `mount_mode` and `display` fields are kept in the state but never
  read, because no handler of this file reads them.

=== FILE: decimal.dfy ===
/** Decimal numerals as Python writes and reads them: `str(i)` for an int
    (shortest form, a leading `-` for negatives) and `int(s)` for a str
    (surrounding white space, a sign, leading zeros and single underscores
    between digits allowed; anything else raises ValueError). */
module Decimal {
  import opened Wrappers

  predicate IsDigit(c: char) {
    '0' <= c <= '9'
  }

  /** A non-empty run of ASCII digits. */
  predicate IsNumeral(s: string) {
    |s| > 0 && forall i :: 0 <= i < |s| ==> IsDigit(s[i])
  }

  /** A numeral without superfluous leading zeros: the form `str` produces. */
  predicate IsCanonical(s: string) {
    IsNumeral(s) && (|s| == 1 || s[0] != '0')
  }

  function DigitValue(c: char): (d: nat)
    requires IsDigit(c)
    ensures d < 10
  {
    c as int - '0' as int
  }

  function DigitChar(d: nat): (c: char)
    requires d < 10
    ensures IsDigit(c) && DigitValue(c) == d
  {
    ('0' as int + d) as char
  }

  /** `str(n)` for a non-negative int. */
  function NatToString(n: nat): (s: string)
    ensures IsCanonical(s)
    ensures n < 10 <==> |s| == 1
    ensures n < 100 <==> |s| <= 2
    decreases n
  {
    if n < 10 then [DigitChar(n)]
    else NatToString(n / 10) + [DigitChar(n % 10)]
  }

  /** `int(s)` for a string of ASCII digits, most significant first. */
  function ParseNat(s: string): nat
    requires forall i :: 0 <= i < |s| ==> IsDigit(s[i])
  {
    if |s| == 0 then 0
    else 10 * ParseNat(s[..|s| - 1]) + DigitValue(s[|s| - 1])
  }

  /** `str(i)` for any int: negative values get a leading minus sign. */
  function Show(i: int): (s: string)
    ensures |s| > 0
    ensures s[0] == '-' <==> i < 0
    ensures i < 0 ==> IsCanonical(s[1..])
    ensures 0 <= i ==> IsCanonical(s)
  {
    if i < 0 then "-" + NatToString(-i) else NatToString(i)
  }

  /** The value of three digits, most significant first. */
  lemma ParseNatThree(s: string)
    requires |s| == 3 && IsNumeral(s)
    ensures ParseNat(s) == 100 * DigitValue(s[0]) + 10 * DigitValue(s[1]) + DigitValue(s[2])
  {
    var two := s[..2];
    var one := two[..1];
    assert one[..0] == [] && one[0] == s[0];
    assert ParseNat(one) == DigitValue(s[0]);
    assert two[1] == s[1] && two[..1] == one;
    assert ParseNat(two) == 10 * DigitValue(s[0]) + DigitValue(s[1]);
  }

  /** A number below 1000 is the sum of its three decimal digits, each
      weighted by its place. */
  lemma ThreePlaces(n: nat)
    requires n <= 999
    ensures n / 100 < 10
    ensures 100 * (n / 100) + 10 * (n / 10 % 10) + n % 10 == n
  {
    assert n / 10 == 10 * (n / 100) + n / 10 % 10;
    assert n == 10 * (n / 10) + n % 10;
  }

  /** Reading back what `str` wrote gives the number again. */
  lemma {:induction false} ParseNatToString(n: nat)
    ensures ParseNat(NatToString(n)) == n
    decreases n
  {
    if n >= 10 {
      var s := NatToString(n);
      ParseNatToString(n / 10);
      assert s[..|s| - 1] == NatToString(n / 10);
    }
  }

  /** A numeral's value is at least its leading digit. */
  lemma {:induction false} ParseNatAtLeastLead(s: string)
    requires IsNumeral(s)
    ensures ParseNat(s) >= DigitValue(s[0])
    decreases |s|
  {
    if |s| > 1 {
      var init := s[..|s| - 1];
      assert IsNumeral(init) by {
        forall i | 0 <= i < |init| ensures IsDigit(init[i]) {
          assert init[i] == s[i];
        }
      }
      ParseNatAtLeastLead(init);
    }
  }

  /** Writing back what `int` read from a canonical numeral gives the same
      text: with ParseNatToString, `str` and `int` are inverse bijections
      between naturals and canonical numerals. */
  lemma {:induction false} NatToStringParse(s: string)
    requires IsCanonical(s)
    ensures NatToString(ParseNat(s)) == s
    decreases |s|
  {
    if |s| > 1 {
      var init := s[..|s| - 1];
      var last := s[|s| - 1];
      assert IsCanonical(init) by {
        forall i | 0 <= i < |init| ensures IsDigit(init[i]) {
          assert init[i] == s[i];
        }
      }
      NatToStringParse(init);
      ParseNatAtLeastLead(init);
      var n := ParseNat(s);
      assert n == 10 * ParseNat(init) + DigitValue(last);
      assert n >= 10;
      assert n / 10 == ParseNat(init);
      assert n % 10 == DigitValue(last);
      assert DigitChar(DigitValue(last)) == last;
      assert s == init + [last];
    } else {
      assert DigitChar(DigitValue(s[0])) == s[0];
    }
  }

  // ---------------------------------------------------------------------
  // `int(s)` on arbitrary text
  // ---------------------------------------------------------------------

  /** The ASCII white space `int` skips around its argument: the space and
      `\t` to `\r`. (`str.isspace` also accepts `\x1c` to `\x1f`, but `int`
      passes ASCII text to a C-level parser that does not.) */
  predicate IsSpace(c: char) {
    c == ' ' || '\t' <= c <= '\r'
  }

  /** `s.lstrip()`: the suffix left after dropping leading white space. */
  function StripLeading(s: string): (t: string)
    ensures |t| <= |s|
  {
    if |s| > 0 && IsSpace(s[0]) then StripLeading(s[1..]) else s
  }

  /** `s.rstrip()`: the prefix left after dropping trailing white space. */
  function StripTrailing(s: string): (t: string)
    ensures |t| <= |s|
  {
    if |s| > 0 && IsSpace(s[|s| - 1]) then StripTrailing(s[..|s| - 1]) else s
  }

  /** `s.strip()`. */
  function Strip(s: string): (t: string)
    ensures |t| <= |s|
  {
    StripTrailing(StripLeading(s))
  }

  /** What `int` accepts after the sign: a digit, followed by nothing, by
      another grouped numeral, or by one underscore and another grouped
      numeral. */
  predicate IsGroupedNumeral(s: string)
    decreases |s|
  {
    && |s| > 0 && IsDigit(s[0])
    && (|s| == 1 || if s[1] == '_' then IsGroupedNumeral(s[2..]) else IsGroupedNumeral(s[1..]))
  }

  /** `s` with every underscore removed, whatever `s` is. */
  function DropUnderscores(s: string): (d: string)
    decreases |s|
  {
    if |s| == 0 then []
    else (if s[0] == '_' then [] else [s[0]]) + DropUnderscores(s[1..])
  }

  /** The digits of a grouped numeral with its underscores dropped: every
      character but the underscores, in order. */
  function Ungrouped(s: string): (d: string)
    requires IsGroupedNumeral(s)
    ensures IsNumeral(d) && |d| <= |s|
    ensures d == DropUnderscores(s)
    decreases |s|
  {
    assert DropUnderscores(s) == [s[0]] + DropUnderscores(s[1..]);
    if |s| == 1 then [s[0]]
    else if s[1] == '_' then
      assert DropUnderscores(s[1..]) == DropUnderscores(s[2..]) by {
        assert s[1..][1..] == s[2..];
      }
      [s[0]] + Ungrouped(s[2..])
    else [s[0]] + Ungrouped(s[1..])
  }

  /** `int(s)` with base 10, None where Python raises ValueError. Whatever
      it accepts holds at least one ASCII digit. */
  function ParseInt(s: string): (r: Option<int>)
    ensures r.Some? ==> exists i :: 0 <= i < |s| && IsDigit(s[i])
  {
    var t := Strip(s);
    assert (forall i :: 0 <= i < |s| ==> !IsDigit(s[i])) ==> ParseStripped(t) == None by {
      if forall i :: 0 <= i < |s| ==> !IsDigit(s[i]) {
        StripDigitless(s);
        DigitlessRejected(t);
      }
    }
    ParseStripped(t)
  }

  /** `int` once the white space around the argument is gone: an optional
      sign, then a grouped numeral. */
  function ParseStripped(t: string): Option<int> {
    if |t| > 0 && (t[0] == '+' || t[0] == '-') then
      var body := t[1..];
      if IsGroupedNumeral(body) then
        var n: int := ParseNat(Ungrouped(body));
        Some(if t[0] == '-' then -n else n)
      else None
    else if IsGroupedNumeral(t) then Some(ParseNat(Ungrouped(t)))
    else None
  }

  /** What lstrip leaves is a suffix: only white space was dropped. */
  lemma {:induction false} StripLeadingSuffix(s: string)
    ensures StripLeading(s) == s[|s| - |StripLeading(s)|..]
    ensures forall i :: 0 <= i < |s| - |StripLeading(s)| ==> IsSpace(s[i])
    decreases |s|
  {
    if |s| > 0 && IsSpace(s[0]) {
      StripLeadingSuffix(s[1..]);
      forall i | 0 < i < |s| - |StripLeading(s)| ensures IsSpace(s[i]) {
        assert s[i] == s[1..][i - 1];
      }
    }
  }

  /** What rstrip leaves is a prefix: only white space was dropped. */
  lemma {:induction false} StripTrailingPrefix(s: string)
    ensures StripTrailing(s) == s[..|StripTrailing(s)|]
    ensures forall i :: |StripTrailing(s)| <= i < |s| ==> IsSpace(s[i])
    decreases |s|
  {
    if |s| > 0 && IsSpace(s[|s| - 1]) {
      var init := s[..|s| - 1];
      StripTrailingPrefix(init);
      forall i | |StripTrailing(s)| <= i < |s| - 1 ensures IsSpace(s[i]) {
        assert s[i] == init[i];
      }
    }
  }

  /** Text that neither starts nor ends with white space is its own strip. */
  lemma StripUnpadded(s: string)
    requires |s| > 0 && !IsSpace(s[0]) && !IsSpace(s[|s| - 1])
    ensures Strip(s) == s
  {
    assert StripLeading(s) == s;
    assert StripTrailing(s) == s;
  }

  /** A plain numeral is a grouped numeral with nothing to drop. */
  lemma {:induction false} NumeralIsGrouped(s: string)
    requires IsNumeral(s)
    ensures IsGroupedNumeral(s) && Ungrouped(s) == s
    decreases |s|
  {
    if |s| > 1 {
      var rest := s[1..];
      assert IsNumeral(rest) by {
        forall i | 0 <= i < |rest| ensures IsDigit(rest[i]) {
          assert rest[i] == s[i + 1];
        }
      }
      assert s[1] == rest[0];
      NumeralIsGrouped(rest);
      assert s == [s[0]] + rest;
    }
  }

  /** On plain ASCII digits `int` agrees with ParseNat. */
  lemma ParseIntNumeral(s: string)
    requires IsNumeral(s)
    ensures ParseInt(s) == Some(ParseNat(s))
  {
    StripUnpadded(s);
    NumeralIsGrouped(s);
  }

  /** A numeral, one underscore and a grouped numeral form a grouped
      numeral, and the underscore is all that is dropped. */
  lemma {:induction false} GroupedAfterUnderscore(a: string, g: string)
    requires IsNumeral(a) && IsGroupedNumeral(g)
    ensures IsGroupedNumeral(a + "_" + g) && Ungrouped(a + "_" + g) == a + Ungrouped(g)
  {
    var s := a + "_" + g;
    GroupedJoin(a, g);
    assert s == a + ("_" + g);
    DropUnderscoresAppend(a, "_" + g);
    DropUnderscoresAppend("_", g);
    assert DropUnderscores("_") == [];
    DropUnderscoresNumeral(a);
    assert DropUnderscores(s) == a + DropUnderscores(g);
  }

  /** The grouping half of GroupedAfterUnderscore, by induction on `a`. */
  lemma {:induction false} GroupedJoin(a: string, g: string)
    requires IsNumeral(a) && IsGroupedNumeral(g)
    ensures IsGroupedNumeral(a + "_" + g)
    decreases |a|
  {
    var s := a + "_" + g;
    if |a| == 1 {
      assert s == [a[0]] + ("_" + g);
      assert s[1] == '_' && s[2..] == g;
    } else {
      var rest := a[1..];
      NumeralTail(a);
      assert s == [a[0]] + (rest + "_" + g);
      assert s[1] == rest[0] && s[1..] == rest + "_" + g;
      GroupedJoin(rest, g);
    }
  }

  /** Dropping underscores distributes over concatenation. */
  lemma {:induction false} DropUnderscoresAppend(x: string, y: string)
    ensures DropUnderscores(x + y) == DropUnderscores(x) + DropUnderscores(y)
    decreases |x|
  {
    if |x| > 0 {
      assert (x + y)[1..] == x[1..] + y;
      DropUnderscoresAppend(x[1..], y);
    } else {
      assert x + y == y;
    }
  }

  /** A run of digits has no underscore to drop. */
  lemma {:induction false} DropUnderscoresNumeral(a: string)
    requires forall i :: 0 <= i < |a| ==> IsDigit(a[i])
    ensures DropUnderscores(a) == a
    decreases |a|
  {
    if |a| > 0 {
      assert forall i :: 0 <= i < |a| - 1 ==> a[1..][i] == a[i + 1];
      DropUnderscoresNumeral(a[1..]);
    }
  }

  lemma NumeralTail(a: string)
    requires IsNumeral(a) && |a| > 1
    ensures IsNumeral(a[1..])
  {
    forall i | 0 <= i < |a| - 1 ensures IsDigit(a[1..][i]) {
      assert a[1..][i] == a[i + 1];
    }
  }

  /** `int` ignores one underscore between two digit runs, so `int('1_5')`
      is 15. */
  lemma ParseIntUnderscore(a: string, b: string)
    requires IsNumeral(a) && IsNumeral(b)
    ensures ParseInt(a + "_" + b) == ParseInt(a + b)
  {
    var s := a + "_" + b;
    NumeralIsGrouped(b);
    GroupedAfterUnderscore(a, b);
    assert s[0] == a[0] && s[|s| - 1] == b[|b| - 1];
    StripUnpadded(s);
    assert IsNumeral(a + b) by {
      forall i | 0 <= i < |a + b| ensures IsDigit((a + b)[i]) {
        if i < |a| {
          assert (a + b)[i] == a[i];
        } else {
          assert (a + b)[i] == b[i - |a|];
        }
      }
    }
    ParseIntNumeral(a + b);
  }

  /** `int(str(i)) == i` for every int. */
  lemma ParseIntShow(i: int)
    ensures ParseInt(Show(i)) == Some(i)
  {
    if i < 0 {
      ShowNegative(i);
    } else {
      ShowNatural(i);
    }
  }

  lemma ShowNatural(n: nat)
    ensures ParseInt(Show(n)) == Some(n)
  {
    var digits := NatToString(n);
    assert Show(n) == digits;
    ParseIntNumeral(digits);
    ParseNatToString(n);
  }

  lemma ShowNegative(i: int)
    requires i < 0
    ensures ParseInt(Show(i)) == Some(i)
  {
    ShowDigits(i);
    ParseIntNegative(Show(i));
  }

  /** The digits `str` writes for a negative int read back as its
      magnitude. */
  lemma ShowDigits(i: int)
    requires i < 0
    ensures |Show(i)| > 1 && ParseNat(Show(i)[1..]) == -i
  {
    var n: nat := -i;
    assert Show(i)[1..] == NatToString(n);
    ParseNatToString(n);
  }

  /** A minus sign directly before ASCII digits negates their value. */
  lemma ParseIntNegative(s: string)
    requires |s| > 0 && s[0] == '-' && IsNumeral(s[1..])
    ensures ParseInt(s) == Some(-(ParseNat(s[1..]) as int))
  {
    assert s[|s| - 1] == s[1..][|s| - 2];
    StripUnpadded(s);
    NegatedNumeral(s);
  }

  lemma NegatedNumeral(t: string)
    requires |t| > 0 && t[0] == '-' && IsNumeral(t[1..])
    ensures ParseStripped(t) == Some(-(ParseNat(t[1..]) as int))
  {
    NumeralIsGrouped(t[1..]);
  }

  /** White space before the argument does not change what `int` reads. */
  lemma ParseIntLeadingSpace(c: char, s: string)
    requires IsSpace(c)
    ensures ParseInt([c] + s) == ParseInt(s)
  {
    assert ([c] + s)[1..] == s;
    assert StripLeading([c] + s) == StripLeading(s);
  }

  /** Text without a single ASCII digit is always rejected. */
  lemma ParseIntNeedsDigit(s: string)
    requires forall i :: 0 <= i < |s| ==> !IsDigit(s[i])
    ensures ParseInt(s) == None
  {
    StripDigitless(s);
    DigitlessRejected(Strip(s));
  }

  /** Stripping white space cannot bring in a digit. */
  lemma StripDigitless(s: string)
    requires forall i :: 0 <= i < |s| ==> !IsDigit(s[i])
    ensures forall k :: 0 <= k < |Strip(s)| ==> !IsDigit(Strip(s)[k])
  {
    var u := StripLeading(s);
    var t := StripTrailing(u);
    StripLeadingSuffix(s);
    StripTrailingPrefix(u);
    assert forall k :: 0 <= k < |t| ==> !IsDigit(t[k]) by {
      forall k | 0 <= k < |t| ensures !IsDigit(t[k]) {
        assert t[k] == u[k] == s[|s| - |u| + k];
      }
    }
  }

  lemma DigitlessRejected(t: string)
    requires forall k :: 0 <= k < |t| ==> !IsDigit(t[k])
    ensures ParseStripped(t) == None
  {
    if |t| > 1 {
      assert t[1..][0] == t[1];
    }
  }

  function Pow10(k: nat): (p: nat)
    ensures p >= 1
  {
    if k == 0 then 1 else 10 * Pow10(k - 1)
  }

  /** A numeral of k digits is below 10^k. */
  lemma {:induction false} ParseNatBound(s: string)
    requires forall i :: 0 <= i < |s| ==> IsDigit(s[i])
    ensures ParseNat(s) < Pow10(|s|)
    decreases |s|
  {
    if |s| > 0 {
      ParseNatBound(s[..|s| - 1]);
    }
  }

  /** `int` of at most three characters lies between -99 and 999: a sign
      leaves room for two digits only. */
  lemma ParseIntThreeChars(s: string)
    requires |s| <= 3 && ParseInt(s).Some?
    ensures -99 <= ParseInt(s).value <= 999
  {
    var t := Strip(s);
    if t[0] == '+' || t[0] == '-' {
      var d := Ungrouped(t[1..]);
      ParseNatBound(d);
      assert Pow10(|d|) <= 100 by {
        assert |d| <= 2;
        assert Pow10(2) == 100;
        if |d| < 2 { assert Pow10(|d|) <= 10; }
      }
    } else {
      var d := Ungrouped(t);
      ParseNatBound(d);
      assert Pow10(|d|) <= 1000 by {
        assert Pow10(3) == 1000;
        if |d| < 3 { assert Pow10(|d|) <= 100 by { if |d| < 2 { assert Pow10(|d|) <= 10; } } }
      }
    }
  }
}

=== FILE: framer.dfy ===
/** The command framer the socket loop of lx200emulator.py applies to each
    chunk it reads (lines 208-215): split on `#`, keep the pieces that are
    longer than one character and start with `:`. */
module Framer {
  import opened Wrappers
  import opened Text

  const Sentinel: char := '#'

  /** Python's `s.split('#')`: the pieces between sentinels, in order,
      including an empty or unterminated last piece. */
  function Split(s: string): (pieces: seq<string>)
    ensures |pieces| > 0
    ensures forall i :: 0 <= i < |pieces| ==> Sentinel !in pieces[i]
    ensures Sentinel !in s <==> pieces == [s]
    decreases |s|
  {
    match Cut(s, Sentinel)
    case None => [s]
    case Some(parts) =>
      var rest := Split(parts.1);
      assert Sentinel in s;
      [parts.0] + rest
  }

  /** `'#'.join(pieces)`. */
  function Join(pieces: seq<string>): (s: string)
    requires |pieces| > 0
  {
    if |pieces| == 1 then pieces[0] else pieces[0] + [Sentinel] + Join(pieces[1..])
  }

  /** Joining the pieces restores the chunk. */
  lemma {:induction false} JoinSplit(s: string)
    ensures Join(Split(s)) == s
    decreases |s|
  {
    match Cut(s, Sentinel)
    case None =>
    case Some(parts) =>
      JoinSplit(parts.1);
  }

  /** Splitting a join of sentinel-free pieces gives the pieces back. */
  lemma {:induction false} SplitJoin(pieces: seq<string>)
    requires |pieces| > 0
    requires forall i :: 0 <= i < |pieces| ==> Sentinel !in pieces[i]
    ensures Split(Join(pieces)) == pieces
    decreases |pieces|
  {
    if |pieces| > 1 {
      var rest := Join(pieces[1..]);
      CutFirst(pieces[0], Sentinel, rest);
      SplitJoin(pieces[1..]);
    }
  }

  /** Split of `a#b` is the split of `a` followed by the split of `b`. */
  lemma {:induction false} SplitAround(a: string, b: string)
    ensures Split(a + [Sentinel] + b) == Split(a) + Split(b)
    decreases |a|
  {
    match Cut(a, Sentinel)
    case None =>
      CutFirst(a, Sentinel, b);
    case Some(parts) =>
      assert a + [Sentinel] + b == parts.0 + [Sentinel] + (parts.1 + [Sentinel] + b);
      CutFirst(parts.0, Sentinel, parts.1 + [Sentinel] + b);
      SplitAround(parts.1, b);
  }

  /** A piece the loop hands to the dispatcher (`len(c) > 1` and
      `c[0] == ':'`). */
  predicate IsCandidate(piece: string) {
    |piece| > 1 && piece[0] == ':'
  }

  /** The candidates among `pieces`, in their original order. */
  function Candidates(pieces: seq<string>): (cmds: seq<string>)
    ensures |cmds| <= |pieces|
    ensures forall i :: 0 <= i < |cmds| ==> IsCandidate(cmds[i]) && cmds[i] in pieces
    ensures forall p :: p in pieces && IsCandidate(p) ==> p in cmds
  {
    if |pieces| == 0 then []
    else (if IsCandidate(pieces[0]) then [pieces[0]] else []) + Candidates(pieces[1..])
  }

  /** Filtering distributes over concatenation, so candidates keep their
      relative order. */
  lemma {:induction false} CandidatesAppend(a: seq<string>, b: seq<string>)
    ensures Candidates(a + b) == Candidates(a) + Candidates(b)
    decreases |a|
  {
    if |a| > 0 {
      assert (a + b)[0] == a[0] && (a + b)[1..] == a[1..] + b;
      CandidatesAppend(a[1..], b);
    } else {
      assert a + b == b;
    }
  }

  /** The commands one chunk yields: none at all when it holds no `#`
      (even a complete-looking `:GR` is dropped), otherwise every candidate
      piece, the unterminated last one included. */
  function Frame(chunk: string): (cmds: seq<string>)
    ensures Sentinel !in chunk ==> cmds == []
    ensures forall i :: 0 <= i < |cmds| ==> IsCandidate(cmds[i]) && Sentinel !in cmds[i]
    ensures Sentinel in chunk ==> forall p :: p in Split(chunk) && IsCandidate(p) ==> p in cmds
  {
    if Sentinel in chunk then Candidates(Split(chunk)) else []
  }

  /** The last piece of a chunk is dispatched even though no `#` ends it,
      as long as the chunk has some `#` earlier. */
  lemma FrameKeepsTrailingPiece(head: string, tail: string)
    requires Sentinel !in tail && IsCandidate(tail)
    ensures Frame(head + [Sentinel] + tail) == Candidates(Split(head)) + [tail]
  {
    SplitAround(head, tail);
    assert Sentinel in head + [Sentinel] + tail by {
      assert (head + [Sentinel] + tail)[|head|] == Sentinel;
    }
    CandidatesAppend(Split(head), [tail]);
    assert Candidates([tail]) == [tail] by {
      assert [tail][1..] == [];
    }
  }

  /** Concatenated terminated commands frame to exactly themselves. */
  lemma FrameTerminated(cmds: seq<string>)
    requires forall i :: 0 <= i < |cmds| ==> IsCandidate(cmds[i]) && Sentinel !in cmds[i]
    ensures Frame(Terminated(cmds)) == cmds
  {
    if |cmds| > 0 {
      var s := Terminated(cmds);
      assert Sentinel in s by {
        assert s == cmds[0] + [Sentinel] + Terminated(cmds[1..]);
        assert s[|cmds[0]|] == Sentinel;
      }
      TerminatedSplit(cmds);
      CandidatesAppend(cmds, [""]);
      var empty: seq<string> := [""];
      assert Candidates(empty) == [] by {
        assert !IsCandidate(empty[0]) && empty[1..] == [];
      }
      CandidatesOfCandidates(cmds);
      assert Frame(s) == Candidates(cmds + [""]);
    }
  }

  /** Each command followed by its `#`, as a client sends them. */
  function Terminated(cmds: seq<string>): string {
    if |cmds| == 0 then "" else cmds[0] + [Sentinel] + Terminated(cmds[1..])
  }

  lemma {:induction false} TerminatedSplit(cmds: seq<string>)
    requires forall i :: 0 <= i < |cmds| ==> Sentinel !in cmds[i]
    ensures Split(Terminated(cmds)) == cmds + [""]
    decreases |cmds|
  {
    if |cmds| > 0 {
      CutFirst(cmds[0], Sentinel, Terminated(cmds[1..]));
      TerminatedSplit(cmds[1..]);
    }
  }

  lemma {:induction false} CandidatesOfCandidates(cmds: seq<string>)
    requires forall i :: 0 <= i < |cmds| ==> IsCandidate(cmds[i])
    ensures Candidates(cmds) == cmds
    decreases |cmds|
  {
    if |cmds| > 0 {
      CandidatesOfCandidates(cmds[1..]);
    }
  }
}

=== FILE: scenarios.dfy ===
/** Concrete sessions against a freshly created state machine, each pinning
    one behaviour of the read loop and the dispatcher to exact bytes. */
module Scenarios {
  import opened Wrappers
  import opened Decimal
  import opened Sexagesimal
  import opened Telescope
  import opened Framer
  import opened Session

  /** The initial position, converted by successive truncation: 18.91 h is
      18 h 54 min 36 s and 33.06 degrees is 33 degrees 3 min 36 s. */
  lemma InitialPositionReplies()
    ensures DegMinSec(18.91) == Dms(18, 54, 36)
    ensures DegMinSec(33.06) == Dms(33, 3, 36)
    ensures FormatRa(Initial().ra) == "18:54:36#"
    ensures FormatDec(Initial().dec) == "+33*3'36#"
  {
    InitialRa();
    InitialDec();
    assert Show(18) == "18" && Show(54) == "54" && Show(36) == "36";
    assert Show(33) == "33" && Show(3) == "3";
  }

  /** Truncation of a non-negative value pinned between two integers. */
  lemma TruncBetween(x: real, n: int)
    requires 0 <= n && n as real <= x < n as real + 1.0
    ensures Trunc(x) == n
  {
  }

  lemma InitialRa()
    ensures DegMinSec(18.91) == Dms(18, 54, 36)
  {
    TruncBetween(18.91, 18);
    assert 60.0 * (18.91 - 18.0) == 54.6;
    TruncBetween(54.6, 54);
    assert 60.0 * (54.6 - 54.0) == 36.0;
    TruncBetween(36.0, 36);
  }

  lemma InitialDec()
    ensures DegMinSec(33.06) == Dms(33, 3, 36)
  {
    TruncBetween(33.06, 33);
    assert 60.0 * (33.06 - 33.0) == 3.6;
    TruncBetween(3.6, 3);
    assert 60.0 * (3.6 - 3.0) == 36.0;
    TruncBetween(36.0, 36);
  }

  // What each command used below answers in any state, one fact per
  // lemma.

  lemma AnswerPosition(st: State)
    ensures Dispatch(st, ":GR") == Success(Step(st, Some(FormatRa(st.ra))))
    ensures Dispatch(st, ":GD") == Success(Step(st, Some(FormatDec(st.dec))))
  {
    RoutingKeys(":GR");
    PositionQueries(st, ":GR");
    RoutingKeys(":GD");
    PositionQueries(st, ":GD");
  }

  lemma AnswerStatus(st: State)
    ensures Dispatch(st, ":GW") == Success(Step(st, Some("006#")))
  {
    RoutingKeys(":GW");
    QueriesAreReadOnly(st, ":GW");
  }

  lemma AnswerZero(st: State)
    ensures Dispatch(st, ":G0") == Success(Step(st, Some("1#")))
  {
    RoutingKeys(":G0");
    QueriesAreReadOnly(st, ":G0");
  }

  lemma AnswerAlignment(st: State)
    ensures Dispatch(st, ":A") == Failure(MissingAlignmentHandler)
  {
    var cmd := ":A";
    assert Family(cmd) == cmd[0..2] == ":A";
  }

  lemma AnswerUnknown(st: State)
    ensures Dispatch(st, ":ZZ") == Success(Step(st, Some(Nack)))
    ensures Dispatch(st, ":GV") == Success(Step(st, Some(Nack)))
    ensures Dispatch(st, ":EX") == Success(Step(st, Some("Select#")))
  {
    RoutingKeys(":ZZ");
    UnknownFamilyIsNack(st, ":ZZ");
    RoutingKeys(":GV");
    UnknownKeyAnswers(st, ":GV");
    RoutingKeys(":EX");
    UnknownKeyAnswers(st, ":EX");
  }

  /** `:SF015` stores 15 and answers `1`. */
  lemma AnswerSet(st: State)
    ensures Dispatch(st, ":SF015") == Success(Step(st.(findFieldDiameter := 15), Some("1")))
  {
    var cmd := ":SF015";
    assert cmd[0] == ':' && cmd[1] == 'S' && cmd[2] == 'F';
    assert cmd[3] == '0' && cmd[4] == '1' && cmd[5] == '5';
    RoutingKeys(cmd);
    SetFieldDiameterStores(st, cmd);
    assert 100 * DigitValue('0') + 10 * DigitValue('1') + DigitValue('5') == 15;
  }

  /** The argument goes through Python's `int`, so a blank-padded `:SF 15`
      is stored as 15. */
  lemma AnswerPaddedSet(st: State)
    ensures Dispatch(st, ":SF 15") == Success(Step(st.(findFieldDiameter := 15), Some("1")))
  {
    var cmd, digits := ":SF 15", "15";
    RoutingKeys(cmd);
    assert DiameterArgument(cmd) == [' '] + digits;
    ParseIntLeadingSpace(' ', digits);
    ParseIntNumeral(digits);
    assert ParseNat(digits) == 15 by {
      assert digits[..1] == "1";
    }
    SetterStores(st, cmd, 15);
  }

  /** A signed `:SF-12` is stored as -12: nothing keeps the diameter
      positive. */
  lemma AnswerSignedSet(st: State)
    ensures Dispatch(st, ":SF-12") == Success(Step(st.(findFieldDiameter := -12), Some("1")))
  {
    var cmd := ":SF-12";
    RoutingKeys(cmd);
    var arg := DiameterArgument(cmd);
    assert arg == "-12" && arg[1..] == "12";
    ParseIntNegative(arg);
    assert ParseNat(arg[1..]) == 12 by {
      assert arg[1..][..1] == "1";
    }
    SetterStores(st, cmd, -12);
  }

  /** `:SF1_5` stores 15: `int` drops an underscore between digits. */
  lemma AnswerGroupedSet(st: State)
    ensures Dispatch(st, ":SF1_5") == Success(Step(st.(findFieldDiameter := 15), Some("1")))
  {
    var cmd := ":SF1_5";
    RoutingKeys(cmd);
    assert DiameterArgument(cmd) == "1_5";
    GroupedFifteen();
    SetterStores(st, cmd, 15);
  }

  lemma GroupedFifteen()
    ensures ParseInt("1_5") == Some(15)
  {
    var a, b := "1", "5";
    assert a + "_" + b == "1_5";
    ParseIntUnderscore(a, b);
    var digits := a + b;
    ParseIntNumeral(digits);
    assert ParseNat(digits) == 15 by {
      assert digits[..1] == "1";
    }
  }

  /** `:SFabc` raises instead of answering. */
  lemma AnswerInvalidSet(st: State)
    ensures Dispatch(st, ":SFabc") == Failure(InvalidLiteral)
  {
    var cmd := ":SFabc";
    RoutingKeys(cmd);
    assert DiameterArgument(cmd) == "abc";
    ParseIntNeedsDigit("abc");
    DispatchOutcomes(st, cmd);
  }

  // Framing of the reads used below, each on its own.

  /** Two candidate pieces around one `#`, the second unterminated. */
  lemma FrameTwo(a: string, b: string)
    requires IsCandidate(a) && Sentinel !in a && IsCandidate(b) && Sentinel !in b
    ensures Frame(a + [Sentinel] + b) == [a, b]
  {
    FrameKeepsTrailingPiece(a, b);
    assert Split(a) == [a];
    assert Candidates([a]) == [a] by {
      assert [a][1..] == [];
    }
  }

  lemma FrameQueries()
    ensures Frame(":GR#:GD#") == [":GR", ":GD"]
  {
    assert Terminated([":GR", ":GD"]) == ":GR#:GD#";
    FrameTerminated([":GR", ":GD"]);
  }

  /** `:GR` alone is dropped, `#` alone frames to nothing. */
  lemma FrameSplitRead()
    ensures Sentinel !in ":GR" && Frame("#") == [] && Frame(":GR#") == [":GR"]
  {
    assert Terminated([""]) == "#";
    TerminatedSplit([""]);
    assert Terminated([":GR"]) == ":GR#";
    FrameTerminated([":GR"]);
  }

  lemma FrameUnterminated()
    ensures Frame(":GW#:G0") == [":GW", ":G0"]
  {
    assert ":GW" + [Sentinel] + ":G0" == ":GW#:G0";
    FrameTwo(":GW", ":G0");
  }

  lemma FrameSetRead()
    ensures Frame(":SF015#") == [":SF015"]
  {
    assert Terminated([":SF015"]) == ":SF015#";
    FrameTerminated([":SF015"]);
  }

  lemma FrameStatusRead()
    ensures Frame(":GW#") == [":GW"]
  {
    assert Terminated([":GW"]) == ":GW#";
    FrameTerminated([":GW"]);
  }

  /** The rest of a command cut after `:GR`: the empty piece before the
      first `#` is not a candidate. */
  lemma FrameGapRead()
    ensures Frame("#:GD#") == [":GD"]
  {
    assert Terminated(["", ":GD"]) == "#:GD#";
    TerminatedSplit(["", ":GD"]);
    assert Candidates([""]) == [] by {
      assert [""][1..] == [];
    }
    assert Candidates([":GD", ""]) == [":GD"] by {
      assert [":GD", ""][1..] == [""];
    }
    assert ["", ":GD", ""][1..] == [":GD", ""];
  }

  lemma FrameInvalidRead()
    ensures Frame(":GW#:SFabc#:GR#") == [":GW", ":SFabc", ":GR"]
  {
    assert Terminated([":GW", ":SFabc", ":GR"]) == ":GW#:SFabc#:GR#";
    FrameTerminated([":GW", ":SFabc", ":GR"]);
  }

  lemma FrameAlignmentReads()
    ensures Frame(":GW#:A#:GR#") == [":GW", ":A", ":GR"] && Frame(":G0#") == [":G0"]
  {
    assert Terminated([":GW", ":A", ":GR"]) == ":GW#:A#:GR#";
    FrameTerminated([":GW", ":A", ":GR"]);
    assert Terminated([":G0"]) == ":G0#";
    FrameTerminated([":G0"]);
  }

  lemma FrameUnknownRead()
    ensures Frame(":ZZ#:GV#:EX#") == [":ZZ", ":GV", ":EX"]
  {
    assert Terminated([":ZZ", ":GV", ":EX"]) == ":ZZ#:GV#:EX#";
    FrameTerminated([":ZZ", ":GV", ":EX"]);
  }

  lemma FrameAlignment()
    ensures Frame(":GW#:A#:GR#") == [":GW", ":A", ":GR"]
    ensures Frame(":G0#") == [":G0"]
  {
    assert Terminated([":GW", ":A", ":GR"]) == ":GW#:A#:GR#";
    FrameTerminated([":GW", ":A", ":GR"]);
    assert Terminated([":G0"]) == ":G0#";
    FrameTerminated([":G0"]);
  }

  lemma FrameUnknown()
    ensures Frame(":ZZ#:GV#:EX#") == [":ZZ", ":GV", ":EX"]
  {
    assert Terminated([":ZZ", ":GV", ":EX"]) == ":ZZ#:GV#:EX#";
    FrameTerminated([":ZZ", ":GV", ":EX"]);
  }

  // Unfoldings over abstract commands and reads, so that the sessions
  // below only instantiate them.

  lemma FeedFramed(st: State, chunk: string, cmds: seq<string>)
    requires Frame(chunk) == cmds
    ensures Feed(st, chunk) == RunCommands(st, cmds)
  {
  }

  lemma RunOne(st: State, a: string, step: Step)
    requires Dispatch(st, a) == Success(step)
    ensures RunCommands(st, [a]) == Run(step.state, Payload(step.reply), Open)
  {
    assert [a][1..] == [];
  }

  lemma RunTwo(st: State, a: string, b: string, ra: string, rb: string)
    requires Dispatch(st, a) == Success(Step(st, Some(ra)))
    requires Dispatch(st, b) == Success(Step(st, Some(rb)))
    ensures RunCommands(st, [a, b]) == Run(st, [ra, rb], Open)
  {
    assert [a, b][1..] == [b];
    RunOne(st, b, Step(st, Some(rb)));
  }

  lemma RunThree(st: State, a: string, b: string, c: string, ra: string, rb: string, rc: string)
    requires Dispatch(st, a) == Success(Step(st, Some(ra)))
    requires Dispatch(st, b) == Success(Step(st, Some(rb)))
    requires Dispatch(st, c) == Success(Step(st, Some(rc)))
    ensures RunCommands(st, [a, b, c]) == Run(st, [ra, rb, rc], Open)
  {
    assert [a, b, c][1..] == [b, c];
    RunTwo(st, b, c, rb, rc);
  }

  /** The second of three commands raises after the first was answered. */
  lemma RunRaisesSecond(st: State, a: string, b: string, c: string, ra: string, f: Fault)
    requires Dispatch(st, a) == Success(Step(st, Some(ra)))
    requires Dispatch(st, b) == Failure(f)
    ensures RunCommands(st, [a, b, c]) == Run(st, [ra], Raised(f))
  {
    assert [a, b, c][1..] == [b, c];
    assert [b, c][1..] == [c];
    assert RunCommands(st, [b, c]) == Run(st, [], Raised(f));
  }

  lemma ConnectionFirst(st: State, chunk: string, rest: seq<string>)
    requires chunk != ""
    ensures Feed(st, chunk).status.Raised? ==> Connection(st, [chunk] + rest) == Feed(st, chunk)
    ensures Feed(st, chunk).status == Open ==>
      Connection(st, [chunk] + rest) ==
        var first := Feed(st, chunk);
        var later := Connection(first.state, rest);
        Run(later.state, first.sent + later.sent, later.status)
  {
    var chunks := [chunk] + rest;
    assert chunks[0] == chunk && chunks[1..] == rest;
  }

  /** A connection of one non-empty read sends what that read sends. */
  lemma ConnectionSingle(st: State, chunk: string)
    requires chunk != ""
    ensures Connection(st, [chunk]) == Feed(st, chunk)
  {
    ConnectionFirst(st, chunk, []);
    assert [chunk] + [] == [chunk];
    assert Feed(st, chunk).sent + [] == Feed(st, chunk).sent;
  }

  /** Two non-empty reads: the second is fed from the state the first left,
      unless the first raised. */
  lemma ConnectionPair(st: State, a: string, b: string)
    requires a != "" && b != ""
    ensures Feed(st, a).status.Raised? ==> Connection(st, [a, b]) == Feed(st, a)
    ensures Feed(st, a).status == Open ==>
      Connection(st, [a, b]) ==
        Run(Feed(Feed(st, a).state, b).state, Feed(st, a).sent + Feed(Feed(st, a).state, b).sent,
            Feed(Feed(st, a).state, b).status)
  {
    ConnectionFirst(st, a, [b]);
    assert [a] + [b] == [a, b];
    ConnectionSingle(Feed(st, a).state, b);
  }

  // Sessions, stated for any reads that frame to the given commands; the
  // Frame lemmas above frame each read named in the examples, and the
  // lemmas at the end put the two together.

  /** Two queries in one read and a set command in the next (for example
      `:GR#:GD#` then `:SF015#`): the replies come back in order and the
      diameter is stored. */
  lemma QueriesThenSet(st: State, queries: string, setting: string)
    requires Frame(queries) == [":GR", ":GD"] && Frame(setting) == [":SF015"]
    ensures Connection(st, [queries, setting]) ==
      Run(st.(findFieldDiameter := 15), [FormatRa(st.ra), FormatDec(st.dec), "1"], Open)
  {
    FeedQueries(st, queries);
    FeedSet(st, setting);
    ConnectionPair(st, queries, setting);
    assert [FormatRa(st.ra), FormatDec(st.dec)] + ["1"] == [FormatRa(st.ra), FormatDec(st.dec), "1"];
  }

  lemma FeedQueries(st: State, chunk: string)
    requires Frame(chunk) == [":GR", ":GD"]
    ensures chunk != ""
    ensures Feed(st, chunk) == Run(st, [FormatRa(st.ra), FormatDec(st.dec)], Open)
  {
    AnswerPosition(st);
    RunTwo(st, ":GR", ":GD", FormatRa(st.ra), FormatDec(st.dec));
    FeedFramed(st, chunk, [":GR", ":GD"]);
  }

  lemma FeedSet(st: State, chunk: string)
    requires Frame(chunk) == [":SF015"]
    ensures chunk != ""
    ensures Feed(st, chunk) == Run(st.(findFieldDiameter := 15), ["1"], Open)
  {
    AnswerSet(st);
    RunOne(st, ":SF015", Step(st.(findFieldDiameter := 15), Some("1")));
    FeedFramed(st, chunk, [":SF015"]);
  }

  /** From the initial state the same two reads are answered `18:54:36#`,
      `+33*3'36#`, `1`; 15 is also the initial diameter, so the state is
      unchanged. */
  lemma InitialQueriesThenSet(queries: string, setting: string)
    requires Frame(queries) == [":GR", ":GD"] && Frame(setting) == [":SF015"]
    ensures Connection(Initial(), [queries, setting]) ==
      Run(Initial(), ["18:54:36#", "+33*3'36#", "1"], Open)
  {
    QueriesThenSet(Initial(), queries, setting);
    InitialPositionReplies();
    assert Initial().(findFieldDiameter := 15) == Initial();
  }

  /** A command split across two reads is lost: a read without `#` (such as
      `:GR`) is dropped whole, so the connection goes on exactly as if it had
      never arrived, whatever the later reads carry. */
  lemma CommandSplitAcrossReadsIsLost(st: State, head: string, rest: seq<string>)
    requires head != "" && Sentinel !in head
    ensures Connection(st, [head] + rest) == Connection(st, rest)
  {
    var chunks := [head] + rest;
    assert chunks[0] == head && chunks[1..] == rest;
    assert Feed(st, head) == Run(st, [], Open);
    assert [] + Connection(st, rest).sent == Connection(st, rest).sent;
  }

  /** The reads `:GR` then `#:GD#`, for example: the `:GR` never gets its
      `#`, so only the declination is answered. */
  lemma SplitQueryAnswersOnlyTheRest(st: State, tail: string)
    requires Frame(tail) == [":GD"]
    ensures Connection(st, [":GR", tail]) == Run(st, [FormatDec(st.dec)], Open)
  {
    assert tail != "";
    var head := ":GR";
    assert Sentinel !in head by {
      assert head[0] != Sentinel && head[1] != Sentinel && head[2] != Sentinel;
    }
    CommandSplitAcrossReadsIsLost(st, head, [tail]);
    assert [head] + [tail] == [head, tail];
    AnswerPosition(st);
    RunOne(st, ":GD", Step(st, Some(FormatDec(st.dec))));
    FeedFramed(st, tail, [":GD"]);
    ConnectionSingle(st, tail);
  }

  /** A trailing piece without its `#` is still dispatched when the read
      holds an earlier `#`, as `:GW#:G0` does. */
  lemma UnterminatedTailIsAnswered(st: State, chunk: string)
    requires Frame(chunk) == [":GW", ":G0"]
    ensures Connection(st, [chunk]) == Run(st, ["006#", "1#"], Open)
  {
    AnswerStatus(st);
    AnswerZero(st);
    RunTwo(st, ":GW", ":G0", "006#", "1#");
    FeedFramed(st, chunk, [":GW", ":G0"]);
    ConnectionSingle(st, chunk);
  }

  /** `:GW#`, then the peer closes: `006#` is sent, the connection reports
      Closed, and a read after the empty one is never looked at. */
  lemma EmptyReadEndsTheSession(st: State, first: string, later: string)
    requires Frame(first) == [":GW"]
    ensures Connection(st, [first, "", later]) == Run(st, ["006#"], Closed)
  {
    assert Sentinel in first;
    AnswerStatus(st);
    RunOne(st, ":GW", Step(st, Some("006#")));
    FeedFramed(st, first, [":GW"]);
    ConnectionSingle(st, first);
    assert [first] + [""] + [later] == [first, "", later];
    EmptyReadCloses(st, [first], [later]);
  }

  /** `:A` raises: replies already sent stay sent, the rest of the read and
      every later read are never dispatched (reads `:GW#:A#:GR#` then
      `:G0#`, for example). */
  lemma AlignmentEndsTheSession(st: State, first: string, second: string)
    requires Frame(first) == [":GW", ":A", ":GR"] && Frame(second) == [":G0"]
    ensures Connection(st, [first, second]) ==
      Run(st, ["006#"], Raised(MissingAlignmentHandler))
  {
    AnswerStatus(st);
    AnswerAlignment(st);
    RunRaisesSecond(st, ":GW", ":A", ":GR", "006#", MissingAlignmentHandler);
    FeedFramed(st, first, [":GW", ":A", ":GR"]);
    AnswerZero(st);
    RunOne(st, ":G0", Step(st, Some("1#")));
    FeedFramed(st, second, [":G0"]);
    ConnectionPair(st, first, second);
  }

  /** A `:SF` argument `int` rejects ends the session the same way (the
      read `:GW#:SFabc#:GR#`, for example): the diameter is not touched. */
  lemma InvalidDiameterEndsTheSession(st: State, chunk: string)
    requires Frame(chunk) == [":GW", ":SFabc", ":GR"]
    ensures Connection(st, [chunk]) == Run(st, ["006#"], Raised(InvalidLiteral))
  {
    AnswerStatus(st);
    AnswerInvalidSet(st);
    RunRaisesSecond(st, ":GW", ":SFabc", ":GR", "006#", InvalidLiteral);
    FeedFramed(st, chunk, [":GW", ":SFabc", ":GR"]);
    ConnectionSingle(st, chunk);
  }

  /** Unknown commands are answered with one NAK byte each, and `:E` keys
      other than `ED` and `EK` with `Select#` (the read `:ZZ#:GV#:EX#`, for
      example). */
  lemma UnknownCommands(st: State, chunk: string)
    requires Frame(chunk) == [":ZZ", ":GV", ":EX"]
    ensures Connection(st, [chunk]) == Run(st, [Nack, Nack, "Select#"], Open)
  {
    AnswerUnknown(st);
    RunThree(st, ":ZZ", ":GV", ":EX", Nack, Nack, "Select#");
    FeedFramed(st, chunk, [":ZZ", ":GV", ":EX"]);
    ConnectionSingle(st, chunk);
  }

  // The sessions above on their example reads.

  /** The reads `:GR#:GD#` then `:SF015#` from the state the server starts
      in: the exact bytes sent are `18:54:36#`, `+33*3'36#` and `1`. */
  lemma InitialSession()
    ensures Connection(Initial(), [":GR#:GD#", ":SF015#"]) ==
      Run(Initial(), ["18:54:36#", "+33*3'36#", "1"], Open)
  {
    FrameQueries();
    FrameSetRead();
    InitialQueriesThenSet(":GR#:GD#", ":SF015#");
  }

  /** The example reads of the sessions that stay open or are closed by the
      peer, from any state. */
  lemma ExampleSessions(st: State, later: string)
    ensures Connection(st, [":GR#:GD#", ":SF015#"]) ==
      Run(st.(findFieldDiameter := 15), [FormatRa(st.ra), FormatDec(st.dec), "1"], Open)
    ensures Connection(st, [":GR", "#:GD#"]) == Run(st, [FormatDec(st.dec)], Open)
    ensures Connection(st, [":GW#:G0"]) == Run(st, ["006#", "1#"], Open)
    ensures Connection(st, [":GW#", "", later]) == Run(st, ["006#"], Closed)
  {
    FrameQueries();
    FrameSetRead();
    QueriesThenSet(st, ":GR#:GD#", ":SF015#");
    FrameGapRead();
    SplitQueryAnswersOnlyTheRest(st, "#:GD#");
    FrameUnterminated();
    UnterminatedTailIsAnswered(st, ":GW#:G0");
    FrameStatusRead();
    EmptyReadEndsTheSession(st, ":GW#", later);
  }

  /** The example reads of the sessions that end in an exception or only
      draw NAKs, from any state. */
  lemma ExampleFailures(st: State)
    ensures Connection(st, [":GW#:A#:GR#", ":G0#"]) == Run(st, ["006#"], Raised(MissingAlignmentHandler))
    ensures Connection(st, [":GW#:SFabc#:GR#"]) == Run(st, ["006#"], Raised(InvalidLiteral))
    ensures Connection(st, [":ZZ#:GV#:EX#"]) == Run(st, [Nack, Nack, "Select#"], Open)
  {
    FrameAlignmentReads();
    AlignmentEndsTheSession(st, ":GW#:A#:GR#", ":G0#");
    FrameInvalidRead();
    InvalidDiameterEndsTheSession(st, ":GW#:SFabc#:GR#");
    FrameUnknownRead();
    UnknownCommands(st, ":ZZ#:GV#:EX#");
  }
}

=== FILE: session.dfy ===
/** The per-connection loop of lx200emulator.py (`emulate_telescope`,
    lines 196-221) without the socket: each read is framed on its own and
    its commands are dispatched in order, every reply that is not None is
    sent at once, and an exception raised by a handler ends everything. */
module Session {
  import opened Wrappers
  import opened Decimal
  import opened Sexagesimal
  import opened Telescope
  import opened Framer

  /** Why processing stopped, if it did: still reading, the peer closed the
      connection (a zero-length read), or a handler raised. */
  datatype Status = Open | Closed | Raised(fault: Fault)

  /** The state reached, the payloads passed to `sendall` in order, and the
      status. */
  datatype Run = Run(state: State, sent: seq<string>, status: Status)

  /** The reply of one step as the list of payloads it sends. */
  function Payload(reply: Option<string>): (out: seq<string>)
    ensures |out| <= 1
    ensures out == [] <==> reply.None?
    ensures reply.Some? ==> out == [reply.value]
  {
    if reply.Some? then [reply.value] else []
  }

  /** Dispatches `cmds` in order from `st`. Replies sent before an exception
      stay sent; commands after it are never dispatched. Only the
      find-field diameter can have changed, and nothing is sent that a
      command did not answer. */
  function RunCommands(st: State, cmds: seq<string>): (r: Run)
    ensures r.status != Closed
    ensures |r.sent| <= |cmds|
    ensures r.state == st.(findFieldDiameter := r.state.findFieldDiameter)
    decreases |cmds|
  {
    if |cmds| == 0 then Run(st, [], Open)
    else match Dispatch(st, cmds[0])
      case Failure(f) => Run(st, [], Raised(f))
      case Success(step) =>
        var rest := RunCommands(step.state, cmds[1..]);
        Run(rest.state, Payload(step.reply) + rest.sent, rest.status)
  }

  /** Whom to blame: a run raises only if one of its commands raises, and
      ends in a changed state only if one of them is `:SF`. */
  lemma {:induction false} RunCommandsBlame(st: State, cmds: seq<string>)
    ensures RunCommands(st, cmds).status.Raised? ==> exists i :: 0 <= i < |cmds| && Raises(cmds[i])
    ensures RunCommands(st, cmds).state != st ==>
      exists i :: 0 <= i < |cmds| && Family(cmds[i]) == ":S" && Key(cmds[i]) == "SF"
    decreases |cmds|
  {
    if |cmds| > 0 {
      DispatchOutcomes(st, cmds[0]);
      match Dispatch(st, cmds[0])
      case Failure(f) =>
      case Success(step) =>
        RunCommandsBlame(step.state, cmds[1..]);
        var rest := RunCommands(step.state, cmds[1..]);
        if rest.status.Raised? {
          var i :| 0 <= i < |cmds[1..]| && Raises(cmds[1..][i]);
          assert cmds[i + 1] == cmds[1..][i];
        }
        if rest.state != st && rest.state != step.state {
          var i :| 0 <= i < |cmds[1..]| && Family(cmds[1..][i]) == ":S" && Key(cmds[1..][i]) == "SF";
          assert cmds[i + 1] == cmds[1..][i];
        }
    }
  }

  /** Running two batches back to back is running their concatenation: an
      exception in the first keeps the second from running at all. */
  lemma {:induction false} RunCommandsAppend(st: State, a: seq<string>, b: seq<string>)
    ensures RunCommands(st, a + b) == Continue(RunCommands(st, a), b)
    decreases |a|
  {
    if |a| == 0 {
      assert a + b == b;
    } else {
      assert (a + b)[0] == a[0] && (a + b)[1..] == a[1..] + b;
      match Dispatch(st, a[0])
      case Failure(f) =>
        RunCommandsRaise(st, a, f);
        RunCommandsRaise(st, a + b, f);
      case Success(step) =>
        RunCommandsAppend(step.state, a[1..], b);
        RunCommandsStep(st, a, step);
        RunCommandsStep(st, a + b, step);
        ContinueAfterStep(step.reply, RunCommands(step.state, a[1..]), b);
    }
  }

  /** What running `b` after a finished run gives: nothing more once it
      raised, otherwise `b` from the state it left, its payloads after the
      earlier ones. */
  function Continue(first: Run, b: seq<string>): Run {
    if first.status == Open then
      var second := RunCommands(first.state, b);
      Run(second.state, first.sent + second.sent, second.status)
    else first
  }

  /** Continuing a run that was preceded by one answered command is the
      same as continuing the run and then putting the reply in front. */
  lemma ContinueAfterStep(reply: Option<string>, rest: Run, b: seq<string>)
    ensures Continue(Run(rest.state, Payload(reply) + rest.sent, rest.status), b) ==
      var c := Continue(rest, b);
      Run(c.state, Payload(reply) + c.sent, c.status)
  {
    if rest.status == Open {
      var second := RunCommands(rest.state, b);
      assert Payload(reply) + rest.sent + second.sent == Payload(reply) + (rest.sent + second.sent);
    }
  }

  /** One step of a run whose first command is answered. */
  lemma RunCommandsStep(st: State, cmds: seq<string>, step: Step)
    requires |cmds| > 0 && Dispatch(st, cmds[0]) == Success(step)
    ensures RunCommands(st, cmds) ==
      var rest := RunCommands(step.state, cmds[1..]);
      Run(rest.state, Payload(step.reply) + rest.sent, rest.status)
  {
  }

  /** A run whose first command raises sends nothing. */
  lemma RunCommandsRaise(st: State, cmds: seq<string>, f: Fault)
    requires |cmds| > 0 && Dispatch(st, cmds[0]) == Failure(f)
    ensures RunCommands(st, cmds) == Run(st, [], Raised(f))
  {
  }

  /** Commands answered by silence (`:RC`) send nothing and change nothing,
      however many of them there are. */
  lemma {:induction false} SilentCommandsSendNothing(st: State, cmds: seq<string>)
    requires forall i :: 0 <= i < |cmds| ==> Family(cmds[i]) == ":R" && Key(cmds[i]) == "RC"
    ensures RunCommands(st, cmds) == Run(st, [], Open)
    decreases |cmds|
  {
    if |cmds| > 0 {
      CenteringRateIsSilent(st, cmds[0]);
      SilentCommandsSendNothing(st, cmds[1..]);
    }
  }

  /** One read: frame the chunk, then dispatch its commands. A chunk without
      `#` is dropped whole: nothing is dispatched and nothing is kept for the
      next read. */
  function Feed(st: State, chunk: string): (r: Run)
    ensures Sentinel !in chunk ==> r == Run(st, [], Open)
    ensures r.status != Closed
    ensures r.state == st.(findFieldDiameter := r.state.findFieldDiameter)
  {
    RunCommands(st, Frame(chunk))
  }

  /** The inner loop of one connection: stops at the first zero-length read
      (the peer closed) or at an exception; otherwise each read is fed in
      turn, starting from the state the previous one left. The state is
      not reset between chunks, nor between connections. */
  function Connection(st: State, chunks: seq<string>): (r: Run)
    ensures r.state == st.(findFieldDiameter := r.state.findFieldDiameter)
    ensures r.status == Closed ==> "" in chunks
    decreases |chunks|
  {
    if |chunks| == 0 then Run(st, [], Open)
    else if chunks[0] == "" then Run(st, [], Closed)
    else
      var first := Feed(st, chunks[0]);
      if first.status.Raised? then first
      else
        var rest := Connection(first.state, chunks[1..]);
        assert rest.status == Closed ==> chunks[0] != "" && "" in chunks[1..];
        Run(rest.state, first.sent + rest.sent, rest.status)
  }

  /** The converse of Connection's `Closed` clause: an empty read that
      arrives while the connection is still open closes it. Everything sent
      before it stands, and no later read is looked at. */
  lemma {:induction false} EmptyReadCloses(st: State, a: seq<string>, b: seq<string>)
    requires "" !in a
    requires Connection(st, a).status == Open
    ensures Connection(st, a + [""] + b) == Run(Connection(st, a).state, Connection(st, a).sent, Closed)
    decreases |a|
  {
    var chunks := a + [""] + b;
    if |a| == 0 {
      assert chunks[0] == "";
    } else {
      assert chunks[0] == a[0] && a[0] != "";
      var first := Feed(st, a[0]);
      assert chunks[1..] == a[1..] + [""] + b;
      EmptyReadCloses(first.state, a[1..], b);
    }
  }

  /** Mirrors the body of the read loop for one non-empty chunk: test for
      `#`, split, then handle the pieces in order until one raises. It
      computes exactly what Feed describes. */
  method HandleChunk(st: State, chunk: string) returns (next: State, sent: seq<string>, fault: Option<Fault>)
    ensures Run(next, sent, if fault.Some? then Raised(fault.value) else Open) == Feed(st, chunk)
  {
    if Sentinel in chunk {
      next, sent, fault := HandlePieces(st, Split(chunk));
      FeedSplit(st, chunk);
    } else {
      next, sent, fault := st, [], None;
    }
  }

  /** The loop `for c in command:` over the pieces of one chunk: it stops at
      the first piece that raises, and otherwise computes the run over all
      candidates. */
  method HandlePieces(st: State, pieces: seq<string>) returns (next: State, sent: seq<string>, fault: Option<Fault>)
    ensures Run(next, sent, if fault.Some? then Raised(fault.value) else Open) == RunCommands(st, Candidates(pieces))
  {
    next, sent, fault := st, [], None;
    var i := 0;
    assert pieces[..0] == [];
    while i < |pieces|
      invariant 0 <= i <= |pieces|
      invariant RunCommands(st, Candidates(pieces[..i])) == Run(next, sent, Open)
    {
      var after, out, raised := HandlePiece(st, pieces, i, next, sent);
      if raised.Some? {
        fault := raised;
        RaisedStaysRaised(st, pieces, i + 1);
        return;
      }
      next, sent := after, out;
      i := i + 1;
    }
    assert pieces[..i] == pieces;
  }

  /** The body of `for c in command:`: skip a piece that is too short or
      lacks the leading `:`, otherwise dispatch it and send its reply unless
      it is None. Continues the run over the pieces before `i` by one. */
  method HandlePiece(ghost st: State, pieces: seq<string>, i: nat, next: State, sent: seq<string>)
    returns (after: State, out: seq<string>, raised: Option<Fault>)
    requires i < |pieces|
    requires RunCommands(st, Candidates(pieces[..i])) == Run(next, sent, Open)
    ensures raised.None? ==> RunCommands(st, Candidates(pieces[..i + 1])) == Run(after, out, Open)
    ensures raised.Some? ==> RunCommands(st, Candidates(pieces[..i + 1])) == Run(next, sent, Raised(raised.value))
  {
    var c := pieces[i];
    after, out, raised := next, sent, None;
    if |c| > 1 {
      if c[0] == ':' {
        var r := Dispatch(next, c);
        if r.Failure? {
          raised := Some(r.error);
          CandidatesSnoc(pieces, i);
          RunOneMoreRaises(st, Candidates(pieces[..i]), c, r.error);
          return;
        }
        after := r.value.state;
        if r.value.reply.Some? {
          out := out + [r.value.reply.value];
        }
        CandidateAnswered(st, pieces, i, sent, r.value, out);
        return;
      }
    }
    NonCandidateSkipped(pieces, i);
  }

  /** The loop step for a candidate the dispatcher answers: the run over
      one more piece ends where the step left it, having sent its reply
      after the earlier ones. */
  lemma CandidateAnswered(st: State, pieces: seq<string>, i: nat, before: seq<string>, step: Step, sent: seq<string>)
    requires i < |pieces| && IsCandidate(pieces[i])
    requires RunCommands(st, Candidates(pieces[..i])).status == Open
    requires RunCommands(st, Candidates(pieces[..i])).sent == before
    requires Dispatch(RunCommands(st, Candidates(pieces[..i])).state, pieces[i]) == Success(step)
    requires sent == before + Payload(step.reply)
    ensures RunCommands(st, Candidates(pieces[..i + 1])) == Run(step.state, sent, Open)
  {
    CandidatesSnoc(pieces, i);
    RunOneMoreAnswers(st, Candidates(pieces[..i]), pieces[i], step);
  }

  /** The loop step for a piece that is not a candidate: nothing changes. */
  lemma NonCandidateSkipped(pieces: seq<string>, i: nat)
    requires i < |pieces| && !IsCandidate(pieces[i])
    ensures Candidates(pieces[..i + 1]) == Candidates(pieces[..i])
  {
    CandidatesSnoc(pieces, i);
  }

  /** Adding one piece to the pieces seen adds it to the candidates exactly
      when it is one. */
  lemma CandidatesSnoc(pieces: seq<string>, i: nat)
    requires i < |pieces|
    ensures Candidates(pieces[..i + 1]) ==
      Candidates(pieces[..i]) + (if IsCandidate(pieces[i]) then [pieces[i]] else [])
  {
    assert pieces[..i + 1] == pieces[..i] + [pieces[i]];
    CandidatesAppend(pieces[..i], [pieces[i]]);
    var single: seq<string> := [pieces[i]];
    assert single[1..] == [];
  }

  /** One more command after an open run that the dispatcher answers:
      its reply, if any, is sent after the others. */
  lemma RunOneMoreAnswers(st: State, cmds: seq<string>, c: string, step: Step)
    requires RunCommands(st, cmds).status == Open
    requires Dispatch(RunCommands(st, cmds).state, c) == Success(step)
    ensures RunCommands(st, cmds + [c]) ==
      Run(step.state, RunCommands(st, cmds).sent + Payload(step.reply), Open)
  {
    var single: seq<string> := [c];
    var first := RunCommands(st, cmds);
    RunCommandsAppend(st, cmds, single);
    assert single[1..] == [];
    RunCommandsStep(first.state, single, step);
    assert first.sent + (Payload(step.reply) + []) == first.sent + Payload(step.reply);
  }

  /** One more command after an open run that raises: the run stops with
      what was sent so far. */
  lemma RunOneMoreRaises(st: State, cmds: seq<string>, c: string, f: Fault)
    requires RunCommands(st, cmds).status == Open
    requires Dispatch(RunCommands(st, cmds).state, c) == Failure(f)
    ensures RunCommands(st, cmds + [c]) ==
      Run(RunCommands(st, cmds).state, RunCommands(st, cmds).sent, Raised(f))
  {
    var single: seq<string> := [c];
    var first := RunCommands(st, cmds);
    RunCommandsAppend(st, cmds, single);
    RunCommandsRaise(first.state, single, f);
    assert first.sent + [] == first.sent;
  }

  /** A chunk with a `#` runs the candidates among its pieces. */
  lemma FeedSplit(st: State, chunk: string)
    requires Sentinel in chunk
    ensures Feed(st, chunk) == RunCommands(st, Candidates(Split(chunk)))
  {
  }

  /** Once the candidates seen so far raised, the rest of the chunk is never
      dispatched. */
  lemma RaisedStaysRaised(st: State, pieces: seq<string>, i: nat)
    requires i <= |pieces|
    requires RunCommands(st, Candidates(pieces[..i])).status.Raised?
    ensures RunCommands(st, Candidates(pieces)) == RunCommands(st, Candidates(pieces[..i]))
  {
    assert pieces == pieces[..i] + pieces[i..];
    CandidatesAppend(pieces[..i], pieces[i..]);
    RunCommandsAppend(st, Candidates(pieces[..i]), Candidates(pieces[i..]));
  }
}

=== FILE: sexagesimal.dfy ===
/** The emulator's sexagesimal conversion and the two position replies
    built on it (lx200emulator.py, `deg_min_sec`, `get_telescope_dec`,
    `get_telescope_ra`). Angles are exact reals: the model says what the
    conversion computes under exact arithmetic, not under IEEE doubles. */
module Sexagesimal {
  import opened Wrappers
  import opened Text
  import opened Decimal

  /** Python's `int(x)` of a float: truncation toward zero. */
  function Trunc(x: real): (r: int)
    ensures 0.0 <= x ==> r as real <= x < r as real + 1.0
    ensures x < 0.0 ==> r as real - 1.0 < x <= r as real
  {
    if 0.0 <= x then x.Floor else -((-x).Floor)
  }

  /** Whole degrees (or hours), minutes and seconds. */
  datatype Dms = Dms(deg: int, min: int, sec: int)

  /** The angle a triple stands for, in the unit of its first component. */
  function Value(d: Dms): real {
    d.deg as real + d.min as real / 60.0 + d.sec as real / 3600.0
  }

  function Negate(d: Dms): Dms {
    Dms(-d.deg, -d.min, -d.sec)
  }

  /** `deg_min_sec`: truncate, then truncate 60 times the fractional
      remainder, twice. The triple falls short of |x| by less than one
      arc-second, toward zero: the conversion truncates, never rounds. */
  function DegMinSec(x: real): (r: Dms)
    ensures 0.0 <= x ==> r.deg == x.Floor && 0 <= r.min <= 59 && 0 <= r.sec <= 59
    ensures x < 0.0 ==> r.deg <= 0 && -59 <= r.min <= 0 && -59 <= r.sec <= 0
    ensures 0.0 <= x ==> Value(r) <= x < Value(r) + 1.0 / 3600.0
    ensures x < 0.0 ==> Value(r) - 1.0 / 3600.0 < x <= Value(r)
  {
    var deg := Trunc(x);
    var dmin := 60.0 * (x - deg as real);
    var min := Trunc(dmin);
    var dsec := 60.0 * (dmin - min as real);
    var sec := Trunc(dsec);
    Dms(deg, min, sec)
  }

  /** The conversion is odd: a negative angle gives the component-wise
      negation of its magnitude's triple. */
  lemma DegMinSecOdd(x: real)
    ensures DegMinSec(-x) == Negate(DegMinSec(x))
  {
    assert forall y: real :: Trunc(-y) == -Trunc(y);
  }

  /** Independent reference for non-negative angles: split the whole number
      of seconds below `x` into degrees, minutes and seconds. */
  function FromSeconds(t: nat): (r: Dms)
    ensures 0 <= r.min <= 59 && 0 <= r.sec <= 59
  {
    Dms(t / 3600, t / 60 % 60, t % 60)
  }

  /** The reference loses nothing: its triple stands for exactly `t`
      seconds. */
  lemma FromSecondsValue(t: nat)
    ensures Value(FromSeconds(t)) == t as real / 3600.0
  {
    var r := FromSeconds(t);
    var q := t / 60;
    assert t == 60 * q + r.sec;
    assert q == 60 * (q / 60) + r.min;
    assert q / 60 == r.deg by {
      assert t == 3600 * (q / 60) + (60 * r.min + r.sec);
      assert 0 <= 60 * r.min + r.sec < 3600;
    }
    assert t == 3600 * r.deg + 60 * r.min + r.sec;
    assert (3600 * r.deg + 60 * r.min + r.sec) as real == 3600.0 * Value(r);
  }

  /** For non-negative input the successive truncations agree with
      flooring the angle to whole seconds once. */
  lemma DegMinSecIsFlooredSeconds(x: real)
    requires 0.0 <= x
    ensures DegMinSec(x) == FromSeconds((3600.0 * x).Floor)
  {
    var r := DegMinSec(x);
    var n := 3600 * r.deg + 60 * r.min + r.sec;
    assert n as real == 3600.0 * Value(r);
    assert n as real <= 3600.0 * x < n as real + 1.0;
    var t := (3600.0 * x).Floor;
    assert t == n;
    assert 0 <= 60 * r.min + r.sec < 3600;
    assert t / 3600 == r.deg;
    assert t % 3600 == 60 * r.min + r.sec;
    assert t / 60 == 60 * r.deg + r.min;
    assert t / 60 % 60 == r.min;
    assert t % 60 == r.sec;
  }

  /** `get_telescope_dec`: a sign chosen from the declination, then each
      component written with `str`, so a negative declination carries a
      second minus sign on every non-zero component. */
  function FormatDec(dec: real): (s: string)
    ensures |s| > 0 && s[|s| - 1] == '#'
    ensures s[0] == '+' <==> 0.0 <= dec
    ensures s[0] == '-' <==> dec < 0.0
  {
    var d := DegMinSec(dec);
    (if dec < 0.0 then "-" else "+") + Show(d.deg) + "*" + Show(d.min) + "'" + Show(d.sec) + "#"
  }

  /** `get_telescope_ra`: `H:M:S#`, unsigned and unpadded. */
  function FormatRa(ra: real): (s: string)
    ensures |s| > 0 && s[|s| - 1] == '#'
    ensures 0.0 <= ra ==> IsDigit(s[0])
    ensures ra <= -1.0 ==> s[0] == '-'
  {
    var d := DegMinSec(ra);
    Show(d.deg) + ":" + Show(d.min) + ":" + Show(d.sec) + "#"
  }

  /** A minute or second field: one or two digits. */
  predicate IsSmallNumeral(s: string) {
    IsNumeral(s) && |s| <= 2
  }

  /** What a client reads from a declination reply. */
  datatype DecReading = DecReading(positive: bool, angle: Dms)

  /** Recogniser and reader for replies of the form `[+-]D+*D{1,2}'D{1,2}#`,
      the shape this reader accepts (unpadded fields, as the emulator prints
      them; not the zero-padded `sDD*MM'SS#` of the LX200 protocol). */
  function ParseDec(s: string): (r: Option<DecReading>)
    ensures r.Some? ==> |s| > 0 && (r.value.positive <==> s[0] == '+')
    ensures r.Some? ==> 0 <= r.value.angle.deg && 0 <= r.value.angle.min <= 99 && 0 <= r.value.angle.sec <= 99
  {
    if |s| == 0 || (s[0] != '+' && s[0] != '-') then None
    else match Cut(s[1..], '*')
      case None => None
      case Some(p1) => match Cut(p1.1, '\'')
        case None => None
        case Some(p2) => match Cut(p2.1, '#')
          case None => None
          case Some(p3) =>
            if p3.1 == [] && IsNumeral(p1.0) && IsSmallNumeral(p2.0) && IsSmallNumeral(p3.0)
            then
              ParseNatBelow100(p2.0);
              ParseNatBelow100(p3.0);
              Some(DecReading(s[0] == '+', Dms(ParseNat(p1.0), ParseNat(p2.0), ParseNat(p3.0))))
            else None
  }

  /** Recogniser and reader for replies of the form `D+:D{1,2}:D{1,2}#`. */
  function ParseRa(s: string): (r: Option<Dms>)
    ensures r.Some? ==> 0 <= r.value.deg && 0 <= r.value.min <= 99 && 0 <= r.value.sec <= 99
  {
    match Cut(s, ':')
    case None => None
    case Some(p1) => match Cut(p1.1, ':')
      case None => None
      case Some(p2) => match Cut(p2.1, '#')
        case None => None
        case Some(p3) =>
          if p3.1 == [] && IsNumeral(p1.0) && IsSmallNumeral(p2.0) && IsSmallNumeral(p3.0)
          then
            ParseNatBelow100(p2.0);
            ParseNatBelow100(p3.0);
            Some(Dms(ParseNat(p1.0), ParseNat(p2.0), ParseNat(p3.0)))
          else None
  }

  lemma ParseNatBelow100(s: string)
    requires IsSmallNumeral(s)
    ensures ParseNat(s) <= 99
  {
    if |s| == 2 {
      var head := s[..1];
      assert head[..0] == [] && head[0] == s[0];
      assert ParseNat(head) <= 9;
    } else {
      assert s[..0] == [];
    }
  }

  /** A numeral contains no separator. */
  lemma NumeralExcludes(s: string, c: char)
    requires IsNumeral(s) && !IsDigit(c)
    ensures c !in s
  {
  }

  /** Any reply of the declination shape reads back as its sign and its
      three numerals' values. */
  lemma ParseDecOf(sign: char, a: string, b: string, c: string)
    requires sign == '+' || sign == '-'
    requires IsNumeral(a) && IsSmallNumeral(b) && IsSmallNumeral(c)
    ensures ParseDec([sign] + a + "*" + b + "'" + c + "#") ==
      Some(DecReading(sign == '+', Dms(ParseNat(a), ParseNat(b), ParseNat(c))))
  {
    DecShape(sign, a, b, c);
    ParseDecNested(sign, a, b, c);
  }

  /** The declination shape regrouped to the right, the way the reader
      consumes it. */
  lemma DecShape(sign: char, a: string, b: string, c: string)
    ensures [sign] + a + "*" + b + "'" + c + "#" == [sign] + (a + ['*'] + (b + ['\''] + (c + ['#'])))
  {
  }

  /** ParseDecOf over the right-grouped shape: each cut stops at the
      delimiter right after its numeral. */
  lemma ParseDecNested(sign: char, a: string, b: string, c: string)
    requires sign == '+' || sign == '-'
    requires IsNumeral(a) && IsSmallNumeral(b) && IsSmallNumeral(c)
    ensures ParseDec([sign] + (a + ['*'] + (b + ['\''] + (c + ['#'])))) ==
      Some(DecReading(sign == '+', Dms(ParseNat(a), ParseNat(b), ParseNat(c))))
  {
    var last := c + ['#'];
    var mid := b + ['\''] + last;
    var body := a + ['*'] + mid;
    var s := [sign] + body;
    assert s[0] == sign && s[1..] == body;
    NumeralExcludes(a, '*');
    NumeralExcludes(b, '\'');
    NumeralExcludes(c, '#');
    CutFirst(a, '*', mid);
    CutFirst(b, '\'', last);
    assert last == c + ['#'] + [];
    CutFirst(c, '#', []);
  }

  /** Any reply of the right-ascension shape reads back as its three
      numerals' values. */
  lemma ParseRaOf(a: string, b: string, c: string)
    requires IsNumeral(a) && IsSmallNumeral(b) && IsSmallNumeral(c)
    ensures ParseRa(a + ":" + b + ":" + c + "#") == Some(Dms(ParseNat(a), ParseNat(b), ParseNat(c)))
  {
    NumeralExcludes(a, ':');
    NumeralExcludes(b, ':');
    NumeralExcludes(c, '#');
    assert a + ":" + b + ":" + c + "#" == a + [':'] + (b + ":" + c + "#");
    CutFirst(a, ':', b + ":" + c + "#");
    assert b + ":" + c + "#" == b + [':'] + (c + "#");
    CutFirst(b, ':', c + "#");
    assert c + "#" == c + ['#'] + [];
    CutFirst(c, '#', []);
  }

  /** Every non-negative declination reply has the shape ParseDec accepts and
      reads back as a positive sign with the exact triple `deg_min_sec`
      computed. */
  lemma FormatDecRoundTrip(dec: real)
    requires 0.0 <= dec
    ensures ParseDec(FormatDec(dec)) == Some(DecReading(true, DegMinSec(dec)))
  {
    var d := DegMinSec(dec);
    var a, b, c := Show(d.deg), Show(d.min), Show(d.sec);
    assert FormatDec(dec) == ['+'] + a + "*" + b + "'" + c + "#";
    ParseDecOf('+', a, b, c);
    ParseNatToString(d.deg);
    ParseNatToString(d.min);
    ParseNatToString(d.sec);
  }

  /** A declination of minus one degree or less is written with a doubled
      minus sign (`--33*-3'-36#` for -33.06), which the declination reader
      rejects. */
  lemma FormatDecNegativeRejected(dec: real)
    requires dec <= -1.0
    ensures FormatDec(dec)[..2] == "--"
    ensures ParseDec(FormatDec(dec)) == None
  {
    var d := DegMinSec(dec);
    assert d.deg <= -1;
    var a := Show(d.deg);
    var rest := Show(d.min) + "'" + Show(d.sec) + "#";
    assert a == "-" + NatToString(-d.deg);
    assert FormatDec(dec) == "-" + a + "*" + rest;
    LeadingSignRejected(a, rest);
  }

  /** A degree field that is not a numeral makes the reply unreadable. */
  lemma LeadingSignRejected(a: string, rest: string)
    requires |a| > 1 && a[0] == '-' && IsNumeral(a[1..])
    ensures ("-" + a + "*" + rest)[..2] == "--"
    ensures ParseDec("-" + a + "*" + rest) == None
  {
    var s := "-" + a + "*" + rest;
    assert '*' !in a by {
      NumeralExcludes(a[1..], '*');
      assert a == [a[0]] + a[1..];
    }
    assert s[1..] == a + ['*'] + rest;
    CutFirst(a, '*', rest);
    assert !IsNumeral(a);
  }

  /** Every non-negative right-ascension reply matches `D+:D{1,2}:D{1,2}#`
      and reads back as the triple `deg_min_sec` computed. */
  lemma FormatRaRoundTrip(ra: real)
    requires 0.0 <= ra
    ensures ParseRa(FormatRa(ra)) == Some(DegMinSec(ra))
  {
    var d := DegMinSec(ra);
    var a, b, c := Show(d.deg), Show(d.min), Show(d.sec);
    ParseRaOf(a, b, c);
    ParseNatToString(d.deg);
    ParseNatToString(d.min);
    ParseNatToString(d.sec);
  }
}

=== FILE: telescope.dfy ===
/** The telescope state machine of lx200emulator.py (`TelescopeStateMachine`):
    a four-field state (plus the unused display text) and the two-level
    command dispatcher, as a pure function from a state and one framed
    command to the next state and an optional reply. */
module Telescope {
  import opened Wrappers
  import opened Text
  import opened Decimal
  import opened Sexagesimal

  /** Right ascension in hours, declination in degrees, the mount-mode code,
      the find-field diameter in degrees and the display text. */
  datatype State = State(ra: real, dec: real, mountMode: char, findFieldDiameter: int, display: string)

  /** The state a new `TelescopeStateMachine` starts in. */
  function Initial(): State {
    State(18.91, 33.06, 'A', 15, "Current display")
  }

  /** The single NAK byte the emulator answers with when it cannot route a
      command ("telescope is busy"). */
  const Nack: string := "\U{15}"

  /** An exception the dispatcher raises instead of answering. */
  datatype Fault =
    /** `:A` routes to `process_alignment`, which the class never defines,
        so Python raises AttributeError. */
    | MissingAlignmentHandler
    /** `:SF` hands `int` an argument it cannot read, so Python raises
        ValueError. */
    | InvalidLiteral

  /** The outcome of one command that did not raise: the next state and the
      reply to send, None for a command answered by silence. */
  datatype Step = Step(state: State, reply: Option<string>)

  /** First-level routing key, `command[0:2]`, written out by length (the
      slice is the whole command when it is shorter than two). */
  function Family(cmd: string): (f: string)
    ensures |f| <= 2
  {
    if |cmd| >= 2 then [cmd[0], cmd[1]] else cmd
  }

  /** Second-level routing key, `command[1:3]`, written out by length. */
  function Key(cmd: string): (k: string)
    ensures |k| <= 2
  {
    if |cmd| >= 3 then [cmd[1], cmd[2]] else if |cmd| == 2 then [cmd[1]] else []
  }

  /** Both keys are exactly Python's clamping slices of the command. */
  lemma RoutingKeysAreSlices(cmd: string)
    ensures Family(cmd) == Slice(cmd, 0, 2)
    ensures Key(cmd) == Slice(cmd, 1, 3)
  {
  }

  /** The argument `:SF` reads, `command[3:6]`. */
  function DiameterArgument(cmd: string): string {
    Slice(cmd, 3, 6)
  }

  /** Both routing keys of a command long enough to have them. */
  lemma RoutingKeys(cmd: string)
    requires |cmd| >= 3
    ensures Family(cmd) == [cmd[0], cmd[1]] && Key(cmd) == [cmd[1], cmd[2]]
  {
  }

  // ---------------------------------------------------------------------
  // Display block (`:E`)
  // ---------------------------------------------------------------------

  /** `basic_display`: the fixed text the handset shows; note it carries no
      terminating `#`. */
  function BasicDisplay(): string {
    "Object"
  }

  /** `get_keypress`: the key code is the rest of the command after `EK`;
      only `9` (the Mode key) has its own answer. */
  function KeyPress(cmd: string): (r: string)
    ensures r == "Mode#" <==> From(cmd, 3) == "9"
    ensures r != "Mode#" ==> r == BasicDisplay()
  {
    if From(cmd, 3) == "9" then "Mode#" else BasicDisplay()
  }

  /** `get_handset_display`: any key other than `ED` and `EK` answers
      `Select#`, never NAK. */
  function HandsetDisplay(cmd: string): (r: string)
    ensures Key(cmd) != "ED" && Key(cmd) != "EK" <==> r == "Select#"
    ensures Key(cmd) == "ED" ==> r == "Object"
    ensures r != Nack
  {
    if Key(cmd) == "ED" then BasicDisplay()
    else if Key(cmd) == "EK" then KeyPress(cmd)
    else "Select#"
  }

  // ---------------------------------------------------------------------
  // Information block (`:G`)
  // ---------------------------------------------------------------------

  /** `get_find_field_diameter` calls `str.format` on `'%03d#'`, which has no
      `{}` field, so the reply is that literal text whatever the state. */
  function FieldDiameterText(st: State): (r: string)
    ensures |r| == 5 && r[0] == '%' && r[4] == '#'
  {
    "%03d#"
  }

  /** `process_telescope_information`: five keys have an answer, every other
      `:G` key is answered with NAK. */
  function TelescopeInformation(st: State, cmd: string): (r: string)
    ensures r == Nack <==> Key(cmd) !in {"G0", "GD", "GF", "GR", "GW"}
  {
    match Key(cmd)
    case "G0" => "1#"
    case "GD" => FormatDec(st.dec)
    case "GF" => FieldDiameterText(st)
    case "GR" => FormatRa(st.ra)
    case "GW" => "006#"
    case _ => Nack
  }

  // ---------------------------------------------------------------------
  // Slew-rate block (`:R`) and set block (`:S`)
  // ---------------------------------------------------------------------

  /** `process_slew_rate`: `RC` is acknowledged by silence. */
  function SlewRate(cmd: string): (r: Option<string>)
    ensures r.None? <==> Key(cmd) == "RC"
    ensures r.Some? ==> r.value == Nack
  {
    if Key(cmd) == "RC" then None else Some(Nack)
  }

  /** `set_find_field_diameter`: stores `int(command[3:6])` without any
      range check and answers `1`; when `int` raises, so does the handler.
      Three characters leave room for -99 through 999 only. */
  function SetFieldDiameter(st: State, cmd: string): (r: Result<Step, Fault>)
    ensures r.Failure? <==> ParseInt(DiameterArgument(cmd)).None?
    ensures r.Failure? ==> r.error == InvalidLiteral
    ensures r.Success? ==> r.value.reply == Some("1")
    ensures r.Success? ==> r.value.state == st.(findFieldDiameter := r.value.state.findFieldDiameter)
    ensures r.Success? ==> -99 <= r.value.state.findFieldDiameter <= 999
  {
    var arg := DiameterArgument(cmd);
    match ParseInt(arg)
    case None => Failure(InvalidLiteral)
    case Some(n) =>
      ParseIntThreeChars(arg);
      Success(Step(st.(findFieldDiameter := n), Some("1")))
  }

  /** Three ASCII digits after the key read as their decimal value. */
  lemma ThreeDigitArgument(cmd: string)
    requires |cmd| >= 6 && IsDigit(cmd[3]) && IsDigit(cmd[4]) && IsDigit(cmd[5])
    ensures ParseInt(DiameterArgument(cmd)) ==
      Some(100 * DigitValue(cmd[3]) + 10 * DigitValue(cmd[4]) + DigitValue(cmd[5]))
  {
    var arg := DiameterArgument(cmd);
    assert arg == [cmd[3], cmd[4], cmd[5]];
    assert arg[0] == cmd[3] && arg[1] == cmd[4] && arg[2] == cmd[5];
    assert IsNumeral(arg);
    ParseNatThree(arg);
    var n := ParseNat(arg);
    assert n == 100 * DigitValue(cmd[3]) + 10 * DigitValue(cmd[4]) + DigitValue(cmd[5]);
    ParseIntNumeral(arg);
    assert ParseInt(arg) == Some(n);
  }

  /** `process_telescope_set`. */
  function TelescopeSet(st: State, cmd: string): (r: Result<Step, Fault>)
    ensures Key(cmd) != "SF" ==> r == Success(Step(st, Some(Nack)))
  {
    if Key(cmd) == "SF" then SetFieldDiameter(st, cmd) else Success(Step(st, Some(Nack)))
  }

  // ---------------------------------------------------------------------
  // Command tree
  // ---------------------------------------------------------------------

  /** `process_command`: route on `command[0:2]`, then on `command[1:3]`. */
  function Dispatch(st: State, cmd: string): (r: Result<Step, Fault>)
    ensures r.Success? ==> r.value.state == st.(findFieldDiameter := r.value.state.findFieldDiameter)
  {
    match Family(cmd)
    case ":A" => Failure(MissingAlignmentHandler)
    case ":E" => Success(Step(st, Some(HandsetDisplay(cmd))))
    case ":G" => Success(Step(st, Some(TelescopeInformation(st, cmd))))
    case ":R" => Success(Step(st, SlewRate(cmd)))
    case ":S" => TelescopeSet(st, cmd)
    case _ => Success(Step(st, Some(Nack)))
  }

  // ---------------------------------------------------------------------
  // Properties of the dispatcher
  // ---------------------------------------------------------------------

  /** The commands whose handler raises: `:A`, and `:SF` with an argument
      `int` rejects. */
  predicate Raises(cmd: string) {
    || Family(cmd) == ":A"
    || (Family(cmd) == ":S" && Key(cmd) == "SF" && ParseInt(DiameterArgument(cmd)).None?)
  }

  /** Exactly the commands of Raises raise, each with its own exception;
      only `:RC` is answered by silence; only `:SF` can change the state. */
  lemma DispatchOutcomes(st: State, cmd: string)
    ensures Dispatch(st, cmd).Failure? <==> Raises(cmd)
    ensures Dispatch(st, cmd).Failure? ==>
      Dispatch(st, cmd).error == (if Family(cmd) == ":A" then MissingAlignmentHandler else InvalidLiteral)
    ensures Dispatch(st, cmd).Success? ==>
      (Dispatch(st, cmd).value.reply.None? <==> Family(cmd) == ":R" && Key(cmd) == "RC")
    ensures Dispatch(st, cmd).Success? && Dispatch(st, cmd).value.state != st ==>
      Family(cmd) == ":S" && Key(cmd) == "SF"
  {
    var f := Family(cmd);
    if f == ":A" {
    } else if f == ":E" {
      assert Dispatch(st, cmd) == Success(Step(st, Some(HandsetDisplay(cmd))));
    } else if f == ":G" {
      assert Dispatch(st, cmd) == Success(Step(st, Some(TelescopeInformation(st, cmd))));
    } else if f == ":R" {
      assert Dispatch(st, cmd) == Success(Step(st, SlewRate(cmd)));
    } else if f == ":S" {
      assert Dispatch(st, cmd) == TelescopeSet(st, cmd);
    } else {
      assert Dispatch(st, cmd) == Success(Step(st, Some(Nack)));
    }
  }

  /** The five families the first level recognises. */
  predicate KnownFamily(f: string) {
    f == ":A" || f == ":E" || f == ":G" || f == ":R" || f == ":S"
  }

  /** An unknown first-level prefix answers exactly one NAK byte and leaves
      the state alone. */
  lemma UnknownFamilyIsNack(st: State, cmd: string)
    requires !KnownFamily(Family(cmd))
    ensures Dispatch(st, cmd) == Success(Step(st, Some(Nack)))
    ensures |Nack| == 1 && Nack[0] as int == 0x15
  {
  }

  /** Within `:G`, `:R` and `:S` an unknown second-level key answers NAK;
      within `:E` it answers `Select#`. The state is unchanged in all four. */
  lemma UnknownKeyAnswers(st: State, cmd: string)
    ensures Family(cmd) == ":G" && Key(cmd) !in {"G0", "GD", "GF", "GR", "GW"} ==>
      Dispatch(st, cmd) == Success(Step(st, Some(Nack)))
    ensures Family(cmd) == ":R" && Key(cmd) != "RC" ==>
      Dispatch(st, cmd) == Success(Step(st, Some(Nack)))
    ensures Family(cmd) == ":S" && Key(cmd) != "SF" ==>
      Dispatch(st, cmd) == Success(Step(st, Some(Nack)))
    ensures Family(cmd) == ":E" && Key(cmd) != "ED" && Key(cmd) != "EK" ==>
      Dispatch(st, cmd) == Success(Step(st, Some("Select#")))
  {
    if Family(cmd) == ":G" && Key(cmd) !in {"G0", "GD", "GF", "GR", "GW"} {
      UnknownInformationKey(st, cmd);
    } else if Family(cmd) == ":R" && Key(cmd) != "RC" {
      UnknownSlewKey(st, cmd);
    } else if Family(cmd) == ":S" && Key(cmd) != "SF" {
      UnknownSetKey(st, cmd);
    } else if Family(cmd) == ":E" && Key(cmd) != "ED" && Key(cmd) != "EK" {
      UnknownDisplayKey(st, cmd);
    }
  }

  lemma UnknownInformationKey(st: State, cmd: string)
    requires Family(cmd) == ":G" && Key(cmd) !in {"G0", "GD", "GF", "GR", "GW"}
    ensures Dispatch(st, cmd) == Success(Step(st, Some(Nack)))
  {
    assert Family(cmd) != ":A" && Family(cmd) != ":E";
    assert Dispatch(st, cmd) == Success(Step(st, Some(TelescopeInformation(st, cmd))));
    assert TelescopeInformation(st, cmd) == Nack;
  }

  lemma UnknownSlewKey(st: State, cmd: string)
    requires Family(cmd) == ":R" && Key(cmd) != "RC"
    ensures Dispatch(st, cmd) == Success(Step(st, Some(Nack)))
  {
    assert Family(cmd) != ":A" && Family(cmd) != ":E" && Family(cmd) != ":G";
    assert Dispatch(st, cmd) == Success(Step(st, SlewRate(cmd)));
  }

  lemma UnknownSetKey(st: State, cmd: string)
    requires Family(cmd) == ":S" && Key(cmd) != "SF"
    ensures Dispatch(st, cmd) == Success(Step(st, Some(Nack)))
  {
    assert Family(cmd) != ":A" && Family(cmd) != ":E" && Family(cmd) != ":G" && Family(cmd) != ":R";
    assert Dispatch(st, cmd) == TelescopeSet(st, cmd);
  }

  lemma UnknownDisplayKey(st: State, cmd: string)
    requires Family(cmd) == ":E" && Key(cmd) != "ED" && Key(cmd) != "EK"
    ensures Dispatch(st, cmd) == Success(Step(st, Some("Select#")))
  {
    assert Family(cmd) != ":A";
    assert Dispatch(st, cmd) == Success(Step(st, Some(HandsetDisplay(cmd))));
  }

  /** `:RC` is answered by silence and changes nothing. */
  lemma CenteringRateIsSilent(st: State, cmd: string)
    requires Family(cmd) == ":R" && Key(cmd) == "RC"
    ensures Dispatch(st, cmd) == Success(Step(st, None))
  {
  }

  /** `:SF` with three digits stores exactly their value, answers `1`, and
      changes no other field. */
  lemma SetFieldDiameterStores(st: State, cmd: string)
    requires Family(cmd) == ":S" && Key(cmd) == "SF"
    requires |cmd| >= 6 && IsDigit(cmd[3]) && IsDigit(cmd[4]) && IsDigit(cmd[5])
    ensures Dispatch(st, cmd) == Success(Step(st.(findFieldDiameter :=
      100 * DigitValue(cmd[3]) + 10 * DigitValue(cmd[4]) + DigitValue(cmd[5])), Some("1")))
  {
    ThreeDigitArgument(cmd);
    SetterStores(st, cmd, 100 * DigitValue(cmd[3]) + 10 * DigitValue(cmd[4]) + DigitValue(cmd[5]));
  }

  /** A `:SF` command whose argument `int` reads as n stores n, whatever
      its spelling (blanks, a sign, fewer digits), and answers `1`. */
  lemma SetterStores(st: State, cmd: string, n: int)
    requires Family(cmd) == ":S" && Key(cmd) == "SF"
    requires ParseInt(DiameterArgument(cmd)) == Some(n)
    ensures Dispatch(st, cmd) == Success(Step(st.(findFieldDiameter := n), Some("1")))
  {
    SetFamily(st, cmd);
    assert TelescopeSet(st, cmd) == SetFieldDiameter(st, cmd);
    SetterReads(st, cmd, n);
  }

  lemma SetFamily(st: State, cmd: string)
    requires Family(cmd) == ":S"
    ensures Dispatch(st, cmd) == TelescopeSet(st, cmd)
  {
    assert Family(cmd) != ":A" && Family(cmd) != ":E" && Family(cmd) != ":G" && Family(cmd) != ":R";
  }

  lemma SetterReads(st: State, cmd: string, n: int)
    requires ParseInt(DiameterArgument(cmd)) == Some(n)
    ensures SetFieldDiameter(st, cmd) == Success(Step(st.(findFieldDiameter := n), Some("1")))
  {
  }

  /** Every `:G` query and every `:E` command is read-only, and the constant
      queries answer their fixed texts whatever the state. */
  lemma QueriesAreReadOnly(st: State, cmd: string)
    requires Family(cmd) == ":G" || Family(cmd) == ":E"
    ensures Dispatch(st, cmd).Success? && Dispatch(st, cmd).value.state == st
    ensures Family(cmd) == ":G" && Key(cmd) == "G0" ==> Dispatch(st, cmd).value.reply == Some("1#")
    ensures Family(cmd) == ":G" && Key(cmd) == "GW" ==> Dispatch(st, cmd).value.reply == Some("006#")
    ensures Family(cmd) == ":G" && Key(cmd) == "GF" ==> Dispatch(st, cmd).value.reply == Some("%03d#")
  {
  }

  /** Position queries: `:GD` and `:GR` answer the formatted declination and
      right ascension of the current state; a non-negative one reads back
      through ParseDec or ParseRa as the truncated triple. */
  lemma PositionQueries(st: State, cmd: string)
    requires Family(cmd) == ":G"
    ensures Key(cmd) == "GD" ==> Dispatch(st, cmd) == Success(Step(st, Some(FormatDec(st.dec))))
    ensures Key(cmd) == "GR" ==> Dispatch(st, cmd) == Success(Step(st, Some(FormatRa(st.ra))))
    ensures Key(cmd) == "GD" && 0.0 <= st.dec ==>
      ParseDec(Dispatch(st, cmd).value.reply.value) == Some(DecReading(true, DegMinSec(st.dec)))
    ensures Key(cmd) == "GR" && 0.0 <= st.ra ==>
      ParseRa(Dispatch(st, cmd).value.reply.value) == Some(DegMinSec(st.ra))
  {
    if Key(cmd) == "GD" {
      DeclinationQuery(st, cmd);
      if 0.0 <= st.dec {
        FormatDecRoundTrip(st.dec);
      }
    } else if Key(cmd) == "GR" {
      RightAscensionQuery(st, cmd);
      if 0.0 <= st.ra {
        FormatRaRoundTrip(st.ra);
      }
    }
  }

  lemma DeclinationQuery(st: State, cmd: string)
    requires Family(cmd) == ":G" && Key(cmd) == "GD"
    ensures Dispatch(st, cmd) == Success(Step(st, Some(FormatDec(st.dec))))
  {
    assert Family(cmd) != ":A" && Family(cmd) != ":E";
    assert Dispatch(st, cmd) == Success(Step(st, Some(TelescopeInformation(st, cmd))));
    assert TelescopeInformation(st, cmd) == FormatDec(st.dec);
  }

  lemma RightAscensionQuery(st: State, cmd: string)
    requires Family(cmd) == ":G" && Key(cmd) == "GR"
    ensures Dispatch(st, cmd) == Success(Step(st, Some(FormatRa(st.ra))))
  {
    assert Family(cmd) != ":A" && Family(cmd) != ":E";
    assert Dispatch(st, cmd) == Success(Step(st, Some(TelescopeInformation(st, cmd))));
    assert TelescopeInformation(st, cmd) == FormatRa(st.ra);
  }

  /** The command a client sends to set the diameter to n: `:SF` and n
      with three digits, zero-padded. */
  function SetCommand(n: nat): (sf: string)
    requires n <= 999
    ensures Family(sf) == ":S" && Key(sf) == "SF"
    ensures ParseInt(DiameterArgument(sf)) == Some(n)
  {
    ThreePlaces(n);
    var sf := [':', 'S', 'F', DigitChar(n / 100), DigitChar(n / 10 % 10), DigitChar(n % 10)];
    SetCommandReads(sf, n / 100, n / 10 % 10, n % 10);
    sf
  }

  lemma SetCommandReads(sf: string, a: nat, b: nat, c: nat)
    requires a < 10 && b < 10 && c < 10
    requires sf == [':', 'S', 'F', DigitChar(a), DigitChar(b), DigitChar(c)]
    ensures Family(sf) == ":S" && Key(sf) == "SF"
    ensures ParseInt(DiameterArgument(sf)) == Some(100 * a + 10 * b + c)
  {
    ThreeDigitArgument(sf);
  }

  /** Setting the diameter and then querying it does not echo the value:
      the set stores n, and the query answers `%03d#` for every n. */
  lemma SetThenQueryDoesNotEcho(st: State, n: nat, query: string)
    requires n <= 999
    requires Family(query) == ":G" && Key(query) == "GF"
    ensures Dispatch(st, SetCommand(n)).Success?
    ensures Dispatch(st, SetCommand(n)).value.state.findFieldDiameter == n
    ensures Dispatch(Dispatch(st, SetCommand(n)).value.state, query) ==
      Success(Step(Dispatch(st, SetCommand(n)).value.state, Some("%03d#")))
  {
    SetterStores(st, SetCommand(n), n);
    QueriesAreReadOnly(st.(findFieldDiameter := n), query);
  }

  // ---------------------------------------------------------------------
  // Reference: a flat routing table
  // ---------------------------------------------------------------------

  /** The handlers the command tree reaches. */
  datatype Handler =
    | AlignmentEntry | Declination | FieldDiameter | RightAscension | ScopeStatus
    | DisplayText | Keypad | CenteringRate | FieldDiameterSetter

  /** The dispatcher's decision tree flattened into one table, keyed by the
      two characters that follow the leading `:`. */
  const Routes: map<(char, char), Handler> := map[
    ('G', '0') := AlignmentEntry,
    ('G', 'D') := Declination,
    ('G', 'F') := FieldDiameter,
    ('G', 'R') := RightAscension,
    ('G', 'W') := ScopeStatus,
    ('E', 'D') := DisplayText,
    ('E', 'K') := Keypad,
    ('R', 'C') := CenteringRate,
    ('S', 'F') := FieldDiameterSetter
  ]

  /** The table key of a command: the two characters after a leading `:`,
      when the command is long enough to have them. */
  function RouteKey(cmd: string): (k: Option<(char, char)>)
    ensures k.Some? <==> |cmd| >= 3 && cmd[0] == ':'
    ensures k.Some? ==> Family(cmd) == [':', k.value.0] && Key(cmd) == [k.value.0, k.value.1]
  {
    if |cmd| >= 3 && cmd[0] == ':' then
      assert Family(cmd) == [':', cmd[1]] && Key(cmd) == [cmd[1], cmd[2]];
      Some((cmd[1], cmd[2]))
    else None
  }

  /** What a routed handler does. */
  function Run(h: Handler, st: State, cmd: string): Result<Step, Fault> {
    match h
    case AlignmentEntry => Success(Step(st, Some("1#")))
    case Declination => Success(Step(st, Some(FormatDec(st.dec))))
    case FieldDiameter => Success(Step(st, Some(FieldDiameterText(st))))
    case RightAscension => Success(Step(st, Some(FormatRa(st.ra))))
    case ScopeStatus => Success(Step(st, Some("006#")))
    case DisplayText => Success(Step(st, Some(BasicDisplay())))
    case Keypad => Success(Step(st, Some(KeyPress(cmd))))
    case CenteringRate => Success(Step(st, None))
    case FieldDiameterSetter => SetFieldDiameter(st, cmd)
  }

  /** What a command that no table entry matches gets, by family. */
  function Fallback(st: State, cmd: string): Result<Step, Fault> {
    match Family(cmd)
    case ":A" => Failure(MissingAlignmentHandler)
    case ":E" => Success(Step(st, Some("Select#")))
    case _ => Success(Step(st, Some(Nack)))
  }

  /** Dispatch through the flat table. */
  function TableDispatch(st: State, cmd: string): Result<Step, Fault> {
    var k := RouteKey(cmd);
    if k.Some? && k.value in Routes then Run(Routes[k.value], st, cmd)
    else Fallback(st, cmd)
  }

  /** A command the table routes is routed by the tree to the same
      handler. */
  lemma RoutedMatchesTable(st: State, cmd: string)
    requires RouteKey(cmd).Some? && RouteKey(cmd).value in Routes
    ensures Dispatch(st, cmd) == TableDispatch(st, cmd)
  {
    var k := RouteKey(cmd).value;
    assert TableDispatch(st, cmd) == Run(Routes[k], st, cmd);
    if k.0 == 'G' {
      RoutedInformation(st, cmd);
    } else {
      RoutedOther(st, cmd);
    }
  }

  lemma RoutedInformation(st: State, cmd: string)
    requires RouteKey(cmd).Some? && RouteKey(cmd).value in Routes && RouteKey(cmd).value.0 == 'G'
    ensures Dispatch(st, cmd) == Run(Routes[RouteKey(cmd).value], st, cmd)
  {
    assert Family(cmd) != ":A" && Family(cmd) != ":E";
    assert Dispatch(st, cmd) == Success(Step(st, Some(TelescopeInformation(st, cmd))));
  }

  lemma RoutedOther(st: State, cmd: string)
    requires RouteKey(cmd).Some? && RouteKey(cmd).value in Routes && RouteKey(cmd).value.0 != 'G'
    ensures Dispatch(st, cmd) == Run(Routes[RouteKey(cmd).value], st, cmd)
  {
    var k := RouteKey(cmd).value;
    if k.0 == 'E' {
      RoutedDisplay(st, cmd);
    } else if k.0 == 'R' {
      RoutedSlew(st, cmd);
    } else {
      RoutedSet(st, cmd);
    }
  }

  lemma RoutedDisplay(st: State, cmd: string)
    requires RouteKey(cmd).Some? && RouteKey(cmd).value in Routes && RouteKey(cmd).value.0 == 'E'
    ensures Dispatch(st, cmd) == Run(Routes[RouteKey(cmd).value], st, cmd)
  {
    var k := RouteKey(cmd).value;
    assert k == ('E', 'D') || k == ('E', 'K');
    assert Family(cmd) == ":E";
    assert Dispatch(st, cmd) == Success(Step(st, Some(HandsetDisplay(cmd))));
  }

  lemma RoutedSlew(st: State, cmd: string)
    requires RouteKey(cmd).Some? && RouteKey(cmd).value in Routes && RouteKey(cmd).value.0 == 'R'
    ensures Dispatch(st, cmd) == Run(Routes[RouteKey(cmd).value], st, cmd)
  {
    var k := RouteKey(cmd).value;
    assert k == ('R', 'C') && Routes[k] == CenteringRate;
    assert Family(cmd) == ":R" && Key(cmd) == "RC";
    CenteringRateIsSilent(st, cmd);
  }

  lemma RoutedSet(st: State, cmd: string)
    requires RouteKey(cmd).Some? && RouteKey(cmd).value in Routes
    requires RouteKey(cmd).value.0 != 'G' && RouteKey(cmd).value.0 != 'E' && RouteKey(cmd).value.0 != 'R'
    ensures Dispatch(st, cmd) == Run(Routes[RouteKey(cmd).value], st, cmd)
  {
    var k := RouteKey(cmd).value;
    assert Routes[k] == FieldDiameterSetter && Family(cmd) == ":S" && Key(cmd) == "SF" by {
      assert k == ('S', 'F');
    }
    assert Dispatch(st, cmd) == TelescopeSet(st, cmd) by {
      assert Family(cmd) != ":A" && Family(cmd) != ":E" && Family(cmd) != ":G" && Family(cmd) != ":R";
    }
  }

  /** A command the table does not route gets the tree's family default:
      its second-level match fails in every family. */
  lemma UnroutedMatchesTable(st: State, cmd: string)
    requires RouteKey(cmd).None? || RouteKey(cmd).value !in Routes
    ensures Dispatch(st, cmd) == TableDispatch(st, cmd)
  {
    assert TableDispatch(st, cmd) == Fallback(st, cmd);
    if RouteKey(cmd).Some? {
      UnroutedKey(st, cmd);
    } else {
      NoRouteKey(st, cmd);
    }
  }

  lemma UnroutedKey(st: State, cmd: string)
    requires RouteKey(cmd).Some? && RouteKey(cmd).value !in Routes
    ensures Dispatch(st, cmd) == Fallback(st, cmd)
  {
    var k := RouteKey(cmd).value;
    assert Family(cmd) == [':', k.0] && Key(cmd) == [k.0, k.1];
    UnknownKeyAnswers(st, cmd);
  }

  lemma NoRouteKey(st: State, cmd: string)
    requires RouteKey(cmd).None?
    ensures Dispatch(st, cmd) == Fallback(st, cmd)
  {
    if |cmd| < 3 {
      assert |Key(cmd)| < 2;
    } else {
      assert Family(cmd)[0] != ':';
    }
    UnknownKeyAnswers(st, cmd);
  }

  /** The two-level decision tree and the flat table route every command
      the same way. */
  lemma DispatchMatchesTable(st: State, cmd: string)
    ensures Dispatch(st, cmd) == TableDispatch(st, cmd)
  {
    if RouteKey(cmd).Some? && RouteKey(cmd).value in Routes {
      RoutedMatchesTable(st, cmd);
    } else {
      UnroutedMatchesTable(st, cmd);
    }
  }
}

=== FILE: text.dfy ===
/** String helpers with the semantics the emulator relies on: Python's
    clamping slice `s[lo:hi]` and the split of a string at the first
    occurrence of a delimiter. */
module Text {
  import opened Wrappers

  /** Python's `s[lo:hi]` for non-negative bounds: out-of-range bounds are
      clamped to the string instead of raising. */
  function Slice(s: string, lo: nat, hi: nat): (r: string)
    ensures lo <= hi <= |s| ==> r == s[lo..hi]
    ensures hi <= lo || |s| <= lo ==> r == []
    ensures lo <= |s| < hi ==> r == s[lo..]
  {
    var h := if hi <= |s| then hi else |s|;
    var l := if lo <= h then lo else h;
    s[l..h]
  }

  /** Python's `s[lo:]` for a non-negative bound. */
  function From(s: string, lo: nat): (r: string)
    ensures lo <= |s| ==> r == s[lo..]
    ensures |s| <= lo ==> r == []
  {
    if lo <= |s| then s[lo..] else []
  }

  /** Splits `s` around the first occurrence of `c`, or None when `c` does
      not occur. */
  function Cut(s: string, c: char): (r: Option<(string, string)>)
    ensures r.None? <==> c !in s
    ensures r.Some? ==> s == r.value.0 + [c] + r.value.1 && c !in r.value.0
  {
    if |s| == 0 then None
    else if s[0] == c then Some(([], s[1..]))
    else match Cut(s[1..], c)
      case None => None
      case Some(parts) => Some(([s[0]] + parts.0, parts.1))
  }

  /** The first occurrence is unique: whatever precedes a `c` that has no
      earlier `c` is exactly what Cut returns. */
  lemma {:induction false} CutFirst(p: string, c: char, q: string)
    requires c !in p
    ensures Cut(p + [c] + q, c) == Some((p, q))
  {
    var s := p + [c] + q;
    if p == [] {
      assert s == [c] + q;
    } else {
      assert s[0] == p[0] != c;
      assert s[1..] == p[1..] + [c] + q;
      CutFirst(p[1..], c, q);
      assert [p[0]] + p[1..] == p;
    }
  }
}

=== FILE: wrappers.dfy ===
/** The Option and Result datatypes used throughout the model. */
module Wrappers {

  /** An optional value: a response that may be absent, a parse that may fail. */
  datatype Option<+T> = None | Some(value: T)

  /** Either the value a computation produced or the error it raised. */
  datatype Result<+R, +E> = Success(value: R) | Failure(error: E)
}
